=== FILE: README.md ===
# Identity plane of the Customize CRM API, in Dafny

This project models the part of the CRM's HTTP API that decides who a caller
is and what the caller may do. It covers:

- password-checked login;
- access/refresh token minting and validation;
- the bearer-token middleware and the administrator gate;
- the user repository over the `users` and `roles` tables;
- the auth and user handlers;
- the route table that decides which gates each endpoint passes.

The database is a pair of maps (`UserService.Store`). A request is a pure
function of:

- that store;
- the clock reading `now`, in whole seconds;
- the random identifiers it would draw (token ids, row id);
- the configuration.

Each write returns the store it leaves behind together with its result.

Token strings are produced and read by a `Jwt.Codec` value. It stands for the
JWT library's encoder and parser, signature checking included. A token
carries the outcome of that check as `sigOk`. The end-to-end lemmas assume
only that the codec is `Sound`: decoding an encoded, correctly signed token
gives the token back, and an encoded token contains no space.

Modules follow the program:

| module | models |
|---|---|
| `Wrappers` | Option/Result |
| `Text` | `strings.Contains`, `strings.Split` with a one-character separator |
| `Decimal` | `strconv.Atoi` as the lifetime settings use it |
| `Uuid` | canonical text form of `uuid.UUID` |
| `Password` | bcrypt hash/compare as an abstract injective digest |
| `Model` | `User`, `Role` and the JSON view of a user |
| `UserService` | the repository |
| `Jwt` | `utils.ValidateToken` |
| `AuthService` | lifetimes, token pair, login, refresh |
| `Middleware` | `Authenticate`, `RequireAdmin` |
| `Http` | status codes and response bodies |
| `AuthController`, `UserController` | the handlers |
| `Router` | the chi route table of `main.go` and `getEnv` |
| `Server` | one request through route, gates and handler |

Some behaviour of the code that is easy to misread:

- **Token expiry.** The JWT library's parser accepts a token only while the
  current instant is before its `exp`. With the clock read in whole seconds
  this is `now < exp`, so a token is refused from its `exp` second on, both
  by `utils.ValidateToken` and by the refresh operation. In `ValidateToken`
  the code's own later check (utils/jwt.go:37) is laxer than the library's
  and, with one clock reading per request, never refuses a token the library
  accepted. The refresh operation reads the claims as a generic map, where
  the library takes an `exp` of 0 for an absent one and accepts the token;
  the code's own check (service/auth_service.go:85-90) then refuses it as
  expired. So a token is refused there exactly when `exp <= now`, partly by
  the library and partly by the code.
- **Subject checking.** `ValidateToken` does not look at the subject. The
  middleware parses it afterwards and answers 401 "Invalid user ID in token".
- **Empty names.** `UpdateCurrentUser` and `UpdateUser` write whatever names
  the request carries, empty ones included. `UserService.Valid` therefore
  asks only for matching ids and unique usernames and emails.
- **`expires_in`.** The field is access expiry minus refresh expiry, a
  negative number. The model keeps the formula (`AuthController.ExpiresIn`).
- **Unknown methods.** chi answers a method outside its nine known ones
  with 405 at the root, before any path matching or sub-router middleware.

## Model

| member | source | states |
|---|---|---|
| Text.ContainsAcrossSeparator | controller/user_controller.go:180-187 | an occurrence of a separator-free word in `a + sep + b` lies wholly in `a` or wholly in `b`, both directions; this is how the message search is decided |
| Text.CharMissing | controller/user_controller.go:180-187 | a text lacking any one character of a word does not contain the word |
| Text.SplitJoin | middleware/auth_middleware.go:32-38 | splitting on a separator and joining the pieces back gives the original text; no piece contains the separator |
| Text.SplitCount | middleware/auth_middleware.go:32-33 | the header splits into one piece iff it has no space, and into exactly two iff it has exactly one space |
| Decimal.Atoi | service/auth_service.go:32-37 | the value read is always within int64, and a failed parse reads as 0 or as an int64 bound; Decimal.AtoiDigits and Decimal.AtoiSyntaxError say which |
| Decimal.SyntaxErrorPersists | service/auth_service.go:32-37 | once a prefix of the text is a syntax error, the whole text is: the first bad character decides |
| Decimal.ScanStopsAt | service/auth_service.go:32-37 | a non-digit met before the digits ahead of it overflow makes the scan a syntax error |
| Decimal.AtoiSyntaxError | service/auth_service.go:32-37 | an empty text, a lone sign, or a non-digit met before any overflow reads as 0 with an error |
| Decimal.AtoiItoa | service/auth_service.go:32-37 | every int64 written in decimal reads back as itself without error |
| Decimal.ScanDigitsValue | service/auth_service.go:32-37 | scanning a run of digits gives the number the digits denote, leading zeros included, or a range error once that number exceeds 2^64 - 1 |
| Decimal.AtoiDigits | service/auth_service.go:32-37 | a run of digits, bare or after `+`, reads as its value and after `-` as its negation; a value beyond the int64 range is clamped to the bound with an error |
| Uuid.Format | service/auth_service.go:56 | the canonical text of an id is 36 characters long |
| Uuid.Parse | middleware/auth_middleware.go:46-50 | a subject parses iff it is in canonical 8-4-4-4-12 form, and the parsed nibbles are the values of its hex digits |
| Uuid.ParseFormat | middleware/auth_middleware.go:46-50 | the text an id is minted under parses back to the same id |
| Uuid.FormatInjective | service/auth_service.go:56 | different ids have different texts, so a subject names one user |
| Password.VerifyHash | service/user_service.go:189-205 | a stored hash accepts exactly the password it was made from |
| Model.ToJsonHidesOnlyHash | model/user.go:9-21 | two users have the same JSON view iff they differ at most in their password hash, so the hash is never rendered and everything else is |
| UserService.ErrorText | controller/user_controller.go:180-187 | the text a handler searches: a unique violation's text is a fixed prefix followed by the quoted constraint name, and the "no rows" text is shorter than that prefix |
| UserService.ErrorTextInjective | controller/user_controller.go:180-187 | different database errors have different texts |
| UserService.GetByID | service/user_service.go:24-50 | the lookup succeeds iff the id is stored, returns that row, and otherwise fails with "no rows" |
| UserService.GetUserByID | service/user_service.go:230-232 | the lookup succeeds iff the id is stored and returns that row; otherwise it fails with "no rows" |
| UserService.GetByUsername | service/user_service.go:53-79 | the lookup succeeds iff some stored user has that username, and returns a stored user with it |
| UserService.GetAll | service/user_service.go:82-123 | the listing has one entry per stored user, lists a user iff it is stored, and under the store invariant lists no id twice |
| UserService.Create | service/user_service.go:126-146 | the insert succeeds iff id, username and email are all free; conflicts are reported as the primary-key, then username, then email violation, leaving the store unchanged; on success the row carries the new id, the hash of the password, the draft's fields and equal timestamps |
| UserService.Update | service/user_service.go:149-162 | an update of a stored id rewrites only names, department, role and active flag and stamps `updated_at`; every other row and field is unchanged; a missing id is "no rows" |
| UserService.UpdatePassword | service/user_service.go:165-179 | the stored hash becomes the new password's hash with a fresh stamp; a missing id changes nothing and is not an error |
| UserService.Delete | service/user_service.go:182-186 | afterwards a user is stored iff it was stored and not listed; survivors are unchanged |
| UserService.Authenticate | service/user_service.go:189-205 | login succeeds iff the username exists, the account is active and the password matches; an unknown username or wrong password gives "invalid credentials" and an inactive account gives "user account is disabled" |
| UserService.GetRoleByID | service/user_service.go:207-228 | a role lookup succeeds iff the role is stored and returns it |
| UserService.CreatePreservesValid | service/user_service.go:126-146 | an insert keeps ids matching keys and usernames and emails unique |
| UserService.UpdatePreservesValid | service/user_service.go:149-162 | an update keeps the store invariant |
| UserService.UpdatePasswordPreservesValid | service/user_service.go:165-179 | a password change keeps the store invariant |
| UserService.DeletePreservesValid | service/user_service.go:182-186 | a delete keeps the store invariant |
| UserService.WritesStayChronological | service/user_service.go:126-179 | with a clock that does not go back, every write keeps `created_at <= updated_at <= now` on all rows |
| Jwt.ValidateToken | utils/jwt.go:11-42 | undecodable text, claims of the wrong JSON types, a non-HMAC algorithm, a bad signature, a missing `exp` and an `exp` at or before `now` are each rejected, the last as expired; a signed HMAC token with `exp` after `now` is accepted with its subject, expiry and id, and every accepted token has `now < exp` |
| AuthService.NewAuthService | service/auth_service.go:31-48 | each lifetime is the configured count, or the default when the count reads as 0, times 60 or 86400 seconds |
| AuthService.DefaultLifetimes | service/auth_service.go:31-48 | settings that are unset or read as 0 give 900 s access and 604800 s refresh lifetimes |
| AuthService.UnparsableLifetimes | service/auth_service.go:31-48 | settings that are unset or that Atoi rejects as a syntax error give the same 900 s and 604800 s |
| AuthService.ConfiguredLifetimes | service/auth_service.go:31-48 | any non-zero int64 counts written in decimal become exactly those many minutes and days |
| AuthService.CreateTokens | service/auth_service.go:101-136 | the pair expires at `now` plus each lifetime; the two token ids are the ids' texts and differ when the ids differ; each token decodes to an HS256 token for the subject with its expiry and id |
| AuthService.FormatNotEqual | service/auth_service.go:103-104 | distinct random ids give distinct token ids |
| AuthService.Login | service/auth_service.go:50-62 | a credential failure is passed through unchanged; on success the result is the authenticated user and the pair minted for that user's id text |
| AuthService.RefreshToken | service/auth_service.go:64-99 | in order: undecodable, non-HMAC, badly signed, no numeric `exp`, expired (`exp` at or before `now`) and non-string subject tokens are each refused; otherwise a fresh pair is minted for the subject |
| AuthService.Logout | service/auth_service.go:138-140 | logout succeeds and changes no state |
| AuthService.AccessTokenValidates | service/auth_service.go:101-136 | a freshly minted access token validates, before its expiry, to the user's id, its expiry and its id |
| AuthService.AccessTokenExpires | utils/jwt.go:12-39 | from its expiry second on, the same access token is rejected as expired |
| AuthService.RefreshRotates | service/auth_service.go:64-99 | a refresh token presented before its expiry second yields a new pair for the same subject, however often it is presented; from that second on it is refused as expired |
| AuthService.RefreshAcceptsAccessToken | service/auth_service.go:64-99 | the refresh operation accepts an access token before its expiry second and refuses it from then on, since the two kinds differ in nothing it checks |
| AuthService.LoginSubject | service/auth_service.go:50-62 | the tokens a login returns carry the logged-in user's id as subject |
| Middleware.WellFormedHeaderShape | middleware/auth_middleware.go:32-38 | a header is accepted iff it is "Bearer ", then a token with no space; the token is what follows the space |
| Middleware.WellFormedHeaderForward | middleware/auth_middleware.go:32-38 | an accepted header starts with "Bearer " and its token has no space |
| Middleware.WellFormedHeaderBackward | middleware/auth_middleware.go:32-38 | every "Bearer " plus space-free token is accepted |
| Middleware.BearerToken | middleware/auth_middleware.go:38 | the token taken from an accepted header is the header minus "Bearer " |
| Middleware.Authenticate | middleware/auth_middleware.go:24-70 | in order: missing header, wrong form, invalid token, unparsable subject and unknown user each get their own 401; a missing role gets 500; otherwise the context gains the user's id, row and role name; every refusal is a 401 or a 500 |
| Middleware.RequireAdmin | middleware/auth_middleware.go:72-82 | passes, with the context unchanged, iff the role is exactly "Admin"; otherwise 403 "Admin permission required" |
| Middleware.MintedTokenAuthenticates | middleware/auth_middleware.go:24-70 | a live token minted for a stored user authenticates as that user whether or not the account is active |
| AuthController.Login | controller/auth_controller.go:33-59 | malformed body gives 400; an empty username or password gives 400; any credential failure gives 401 "Invalid credentials"; success gives 200 with both tokens, the user's id, username and email |
| AuthController.RefreshToken | controller/auth_controller.go:72-97 | malformed body gives 400; an empty token gives 400; any service error gives 401 "Invalid refresh token"; success gives 200 with the new pair |
| AuthController.Logout | controller/auth_controller.go:108-112 | always 200 "Logged out successfully"; no token is revoked |
| AuthController.ForgotPassword | controller/auth_controller.go:124-128 | always 200 with the not-implemented message |
| AuthController.ResetPassword | controller/auth_controller.go:140-144 | always 200 with the not-implemented message |
| AuthController.ExpiresInIsLifetimeDifference | controller/auth_controller.go:57 | `expires_in` is access lifetime minus refresh lifetime, -603900 with the defaults |
| AuthController.CredentialFailuresIndistinguishable | controller/auth_controller.go:45-49 | unknown user, disabled account and wrong password get the identical 401 response |
| AuthController.InactiveAccountsCannotLogIn | service/user_service.go:189-205 | an active user with the right password logs in; after the account is deactivated the same request gets 401 "Invalid credentials" |
| AuthController.RefreshAfterLogin | controller/auth_controller.go:84-96 | presenting a minted refresh token before its expiry second returns 200 with the pair minted at the refresh time; from that second on it gets 401 "Invalid refresh token" |
| UserController.GetCurrentUser | controller/user_controller.go:60-74 | no id in context gives 401; an unknown id gives 404; otherwise 200 with the caller's JSON view |
| UserController.UpdateCurrentUser | controller/user_controller.go:90-119 | checks run context, then body, then lookup; on success only names and department take the request's values and the response is the stored row |
| UserController.GetAllUsers | controller/user_controller.go:133-141 | 200 with one JSON view per stored user, each stored user listed |
| UserController.CreateErrorResponse | controller/user_controller.go:179-192 | each of the four responses is given iff the error text matches its substring condition, with "username" taking precedence over "email" |
| UserController.CreateUser | controller/user_controller.go:157-195 | malformed body gives 400; any of the five text fields empty gives 400 with the store unchanged; otherwise the insert's error is classified by its text, and success gives 201 with the new user's view |
| UserController.PathId | controller/user_controller.go:212-222 | an empty `{id}` gives 400 "User ID is required", an unparsable one 400 "Invalid user ID format", otherwise the parsed id |
| UserController.GetUserByID | controller/user_controller.go:211-231 | after the `{id}` checks, an unknown id gives 404 and a stored one 200 with its view |
| UserController.UpdateUser | controller/user_controller.go:249-286 | checks run `{id}`, then body, then lookup; on success all five editable fields take the request's values |
| UserController.DeleteUsers | controller/user_controller.go:302-320 | malformed body gives 400; an empty id list gives 400 and deletes nothing; otherwise the listed users are removed and the reply is 200 "Users deleted successfully" |
| UserController.ViolationSaysDuplicateKey | controller/user_controller.go:180 | every unique-violation error text contains "duplicate key" |
| UserController.FixedWordsMentionNoColumn | controller/user_controller.go:181-183 | the fixed words of a violation text contain neither "username" nor "email" |
| UserController.ViolationMentions | controller/user_controller.go:181-183 | a violation text contains "username" or "email" iff its constraint name does |
| UserController.ConstraintNamesMention | controller/user_controller.go:181-187 | the username constraint's name contains "username"; the email constraint's name contains "email" but not "username"; the primary key's contains neither |
| UserController.DuplicateMessages | controller/user_controller.go:179-189 | an id collision gives "User already exists", a taken username gives "Username already exists", a free username with a taken email gives "Email already exists", and the store is unchanged in each case |
| UserController.SelfUpdateKeepsPrivileges | controller/user_controller.go:109-111 | a self-update never changes the caller's role, active flag, id, username, email, hash or creation time |
| UserController.AdminUpdateResetsOmittedFlag | controller/user_controller.go:274-278 | an admin update whose body leaves `is_active` out deactivates the user and writes the request's role |
| UserController.UpdateCurrentUserPreservesValid | controller/user_controller.go:90-119 | the self-update keeps the store invariant |
| UserController.UpdateUserPreservesValid | controller/user_controller.go:249-286 | the admin update keeps the store invariant |
| UserController.CreateUserPreservesValid | controller/user_controller.go:157-195 | user creation keeps the store invariant |
| UserController.DeleteUsersPreservesValid | controller/user_controller.go:302-320 | deletion keeps the store invariant |
| Router.SubPath | main.go:162-178 | a mounted sub-router sees a path iff it is the mount path or continues it with "/"; what it sees starts with "/" and completes the mount path |
| Router.AuthRoutes | main.go:162-174 | no auth route is admin-gated, and the only one behind Authenticate is POST /logout |
| Router.UserRoutes | main.go:185-192 | inside the users sub-router, the admin gate applies exactly to the five administrators' handlers |
| Router.Route | main.go:160-194 | a method chi does not know gets 405 with no gate; otherwise auth paths dispatch as the auth sub-router says, users paths get Authenticate followed by the sub-router's own gates, and any other path passes no gate |
| Router.GetEnv | main.go:216-222 | a set key's value is returned, even when empty; the default only for an unset key |
| Router.ServerPort | main.go:119 | the port is SERVER_PORT when set, else "8080" |
| Router.AdminGateExactlyOnAdminRoutes | main.go:185-191 | for every method and path, a request meets RequireAdmin iff it reaches an administrators' handler, and then meets Authenticate first |
| Router.UsersRoutesAuthenticateFirst | main.go:178-180 | a request under /api/v1/users meets Authenticate first, whatever it reaches, iff chi knows its method; any other method gets 405 with no gate |
| Router.AuthRouteTable | main.go:162-173 | the four public auth routes have no gate and logout has Authenticate only |
| Router.UserRouteTable | main.go:178-192 | /me is gated by Authenticate only and the five admin routes by Authenticate then RequireAdmin; the listing answers on the mount path with and without a trailing slash |
| Server.Gatekeep | main.go:169-186 | an empty chain passes the context through; a chain that ends in the admin gate passes only an "Admin" context; a chain with Authenticate passes only a context with a user |
| Server.Handle | main.go:160-194 | every handler keeps the store invariant, and only the four writing handlers change the store |
| Server.Serve | main.go:160-194 | a refused request gets the first gate's refusal with the store unchanged; otherwise the routed handler's result on the gates' context; on a route without gates, the handler's result on the empty context |
| Server.NonAdminsForbidden | middleware/auth_middleware.go:72-82 | on every administrators' route, an authenticated non-admin gets 403 before any handler runs, and an administrator passes with the authenticated context |
| Server.AuthenticateGuardsGatedRoutes | main.go:179-180 | on every gated route, a request Authenticate refuses gets exactly that refusal |
| Server.UngatedRoutes | main.go:112-166 | the routes without gates are the public auth routes, Swagger, 404 and 405; they pass with the empty context whatever the Authorization header, and write nothing |

## Left out

- Password.Hash: bcrypt's salt, cost and 72-byte input limit are not modelled. The hash is an injective digest, so two hashes of one password compare equal here, unlike bcrypt's.
- Password.Hash: a hashing error in `Create` and `UpdatePassword` cannot happen in the model.
- Jwt.ValidateToken: HMAC-SHA-256 signing, the secret and JSON encoding are behind the `Codec` parameter.
- Jwt.ValidateToken: the library's not-before (`nbf`) check is not modelled, since the tokens this program mints carry no `nbf`. A fractional `exp` is not modelled either, nor the library's acceptance of an `exp` written as a quoted number, which this model refuses as malformed; minted tokens carry neither.
- Uuid.Parse: accepts only the canonical 36-character form, in either letter case. The library's braced, `urn:uuid:` and 32-digit spellings are rejected here.
- AuthService.NewAuthService: lifetimes are unbounded integers. The int64 nanosecond `time.Duration` product, which wraps for very large settings, is not modelled.
- AuthService.NewAuthService: negative settings are kept, as in the code.
- Random token ids and new row ids are parameters. The database's id generation, the clock and `JWT_SECRET` are not modelled.
- SQL, the pgx pool and connection-string parsing are not modelled, nor are database errors other than "no rows" and unique violations. The 500 responses "Error fetching users", "Error updating user" and "Error deleting users" are therefore unreachable, and "Error creating user" only follows errors that are not unique violations.
- The model assumes PostgreSQL's default constraint names `users_pkey`, `users_username_key` and `users_email_key`, because the schema is not part of this model. For the same reason, `UserService.Create` reports a conflict on several keys as the primary key first, then username, then email; that order is the index-creation order the model assumes, not something the code fixes.
- UserService.ErrorText: assumes pgx's "SEVERITY: message (SQLSTATE code)" rendering of PostgreSQL's English messages. A server configured with another `lc_messages` sends translated text; `Create` passes it through unwrapped, so `CreateUser` would answer 500 "Error creating user" where the model gives the duplicate messages.
- `role_id` is not tied to `roles` by a foreign key, because the schema is not part of this model. That keeps the middleware's 500 "Error fetching user role" reachable.
- Scanning of NULL departments is not modelled. Timestamps are whole seconds, and one request sees one clock reading.
- JSON decoding of request bodies is a parameter (`Server.Decoders`). JSON rendering of responses is not modelled: a response is a status and a body value.
- Request contexts, cancellation and concurrent requests are not modelled. A row deleted between a handler's lookup and its update cannot happen here.
- Global middleware is not modelled: logging, panic recovery, request ids, real IP, the 60-second timeout and CORS, including preflight answers. Serving Swagger content, and its own 404s, is not modelled either.
- Server start-up, `.env` loading, database connection and graceful shutdown are not modelled.
- chi's URL decoding, and its treatment of empty or repeated path segments, are not modelled. As a result, an empty `{id}` never reaches `GetUserByID` or `UpdateUser` through `Router.Route`.
- The CRM's other model files (customers, contacts, opportunities, products, tasks, interactions, activity logs) are declarations with no identity behaviour.

=== FILE: auth_controller.dfy ===
/** The auth handlers (controller/auth_controller.go). A request body that
    is not valid JSON is `None`; a valid one is decoded into the request
    record, with absent fields left empty. */
module AuthController {
  import opened Wrappers
  import opened Uuid
  import opened Jwt
  import opened Model
  import opened UserService
  import opened AuthService
  import opened Http
  import Password

  datatype LoginRequest = LoginRequest(username: string, password: string)
  datatype RefreshTokenRequest = RefreshTokenRequest(refreshToken: string)

  /** The `expires_in` field of both token responses: access expiry minus
      refresh expiry, as written. */
  function ExpiresIn(td: TokenDetails): int
  {
    td.atExpires - td.rtExpires
  }

  /** POST /login. */
  function Login(cfg: AuthConfig, c: Codec, s: Store, now: int, aj: Uuid, rj: Uuid, req: Option<LoginRequest>): (resp: Response)
    requires UniqueUsernames(s)
    ensures req.None? ==> resp == Error(StatusBadRequest, "Invalid request payload")
    ensures req.Some? && (req.value.username == "" || req.value.password == "") ==>
              resp == Error(StatusBadRequest, "Username and password are required")
    ensures req.Some? && req.value.username != "" && req.value.password != "" ==>
              var auth := UserService.Authenticate(s, req.value.username, req.value.password);
              && (auth.Err? ==> resp == Error(StatusUnauthorized, "Invalid credentials"))
              && (auth.Ok? ==>
                    var td := CreateTokens(cfg, c, Format(auth.value.id), now, aj, rj);
                    resp == Response(StatusOK, LoginBody(td.accessToken, td.refreshToken, Format(auth.value.id),
                                                         auth.value.username, auth.value.email, ExpiresIn(td))))
  {
    match req
    case None => Error(StatusBadRequest, "Invalid request payload")
    case Some(r) =>
      if r.username == "" || r.password == "" then Error(StatusBadRequest, "Username and password are required")
      else
        match AuthService.Login(cfg, c, s, r.username, r.password, now, aj, rj)
        case Err(_) => Error(StatusUnauthorized, "Invalid credentials")
        case Ok((td, u)) =>
          Response(StatusOK, LoginBody(td.accessToken, td.refreshToken, Format(u.id), u.username, u.email, ExpiresIn(td)))
  }

  /** POST /refresh-token. */
  function RefreshToken(cfg: AuthConfig, c: Codec, now: int, aj: Uuid, rj: Uuid, req: Option<RefreshTokenRequest>): (resp: Response)
    ensures req.None? ==> resp == Error(StatusBadRequest, "Invalid request payload")
    ensures req.Some? && req.value.refreshToken == "" ==> resp == Error(StatusBadRequest, "Refresh token is required")
    ensures req.Some? && req.value.refreshToken != "" ==>
              var r := AuthService.RefreshToken(cfg, c, req.value.refreshToken, now, aj, rj);
              && (r.Err? ==> resp == Error(StatusUnauthorized, "Invalid refresh token"))
              && (r.Ok? ==> resp == Response(StatusOK, RefreshBody(r.value.accessToken, r.value.refreshToken, ExpiresIn(r.value))))
  {
    match req
    case None => Error(StatusBadRequest, "Invalid request payload")
    case Some(r) =>
      if r.refreshToken == "" then Error(StatusBadRequest, "Refresh token is required")
      else
        match AuthService.RefreshToken(cfg, c, r.refreshToken, now, aj, rj)
        case Err(_) => Error(StatusUnauthorized, "Invalid refresh token")
        case Ok(td) => Response(StatusOK, RefreshBody(td.accessToken, td.refreshToken, ExpiresIn(td)))
  }

  /** POST /logout: a fixed success message; no token is invalidated. */
  function Logout(): (resp: Response)
    ensures resp.status == StatusOK && resp.body == MessageBody("Logged out successfully")
  {
    Response(StatusOK, MessageBody("Logged out successfully"))
  }

  /** POST /forgot-password: a stub. */
  function ForgotPassword(): (resp: Response)
    ensures resp.status == StatusOK && resp.body == MessageBody("Password reset functionality not implemented yet")
  {
    Response(StatusOK, MessageBody("Password reset functionality not implemented yet"))
  }

  /** POST /reset-password: a stub. */
  function ResetPassword(): (resp: Response)
    ensures resp.status == StatusOK && resp.body == MessageBody("Password reset functionality not implemented yet")
  {
    Response(StatusOK, MessageBody("Password reset functionality not implemented yet"))
  }

  // Properties of the handlers.

  /** `expires_in` is the difference of the two lifetimes, not the time left:
      with the default lifetimes it is 900 - 604800 = -603900 seconds. */
  lemma ExpiresInIsLifetimeDifference(cfg: AuthConfig, c: Codec, s: Store, now: int, aj: Uuid, rj: Uuid, req: LoginRequest)
    requires UniqueUsernames(s)
    requires Login(cfg, c, s, now, aj, rj, Some(req)).status == StatusOK
    ensures Login(cfg, c, s, now, aj, rj, Some(req)).body.expiresIn == cfg.accessExp - cfg.refreshExp
    ensures cfg == NewAuthService(map[]) ==> Login(cfg, c, s, now, aj, rj, Some(req)).body.expiresIn == -603900
  {
  }

  /** Unknown username, disabled account and wrong password are
      indistinguishable on the wire. */
  lemma CredentialFailuresIndistinguishable(cfg: AuthConfig, c: Codec, s: Store, now: int, aj: Uuid, rj: Uuid,
                                            r1: LoginRequest, r2: LoginRequest)
    requires UniqueUsernames(s)
    requires r1.username != "" && r1.password != "" && r2.username != "" && r2.password != ""
    requires UserService.Authenticate(s, r1.username, r1.password).Err?
    requires UserService.Authenticate(s, r2.username, r2.password).Err?
    ensures Login(cfg, c, s, now, aj, rj, Some(r1)) == Login(cfg, c, s, now, aj, rj, Some(r2))
            == Error(StatusUnauthorized, "Invalid credentials")
  {
  }

  /** An active user with the right password logs in; the same request
      after the account is switched off is refused like a bad password. */
  lemma InactiveAccountsCannotLogIn(cfg: AuthConfig, c: Codec, s: Store, now: int, aj: Uuid, rj: Uuid,
                                    id: Uuid, password: string, later: int)
    requires Valid(s) && id in s.users
    requires s.users[id].isActive && Password.Verify(s.users[id].passwordHash, password)
    requires s.users[id].username != "" && password != ""
    ensures var req := Some(LoginRequest(s.users[id].username, password));
            && Login(cfg, c, s, now, aj, rj, req).status == StatusOK
            && Login(cfg, c, s, now, aj, rj, req).body.userId == Format(id)
            && var off := UserService.Update(s, s.users[id].(isActive := false), later).store;
               Valid(off) && Login(cfg, c, off, now, aj, rj, req) == Error(StatusUnauthorized, "Invalid credentials")
  {
    var u := s.users[id];
    assert UsernameTaken(s, u.username);
    var off := UserService.Update(s, u.(isActive := false), later).store;
    UpdatePreservesValid(s, u.(isActive := false), later);
    assert UsernameTaken(off, u.username);
    assert GetByUsername(off, u.username).value == off.users[id];
  }

  /** The refresh response of a token minted at login carries a new token
      pair for the same subject before the token's expiry second, and is
      401 "Invalid refresh token" from that second on. */
  lemma RefreshAfterLogin(cfg: AuthConfig, c: Codec, userId: string, now: int, aj: Uuid, rj: Uuid,
                          later: int, aj': Uuid, rj': Uuid)
    requires Sound(c)
    requires CreateTokens(cfg, c, userId, now, aj, rj).refreshToken != ""
    ensures var first := CreateTokens(cfg, c, userId, now, aj, rj);
            var next := CreateTokens(cfg, c, userId, later, aj', rj');
            var resp := RefreshToken(cfg, c, later, aj', rj', Some(RefreshTokenRequest(first.refreshToken)));
            && (later < first.rtExpires ==>
                  resp == Response(StatusOK, RefreshBody(next.accessToken, next.refreshToken, cfg.accessExp - cfg.refreshExp)))
            && (first.rtExpires <= later ==> resp == Error(StatusUnauthorized, "Invalid refresh token"))
  {
    RefreshRotates(cfg, c, userId, now, aj, rj, later, aj', rj');
  }
}

=== FILE: auth_service.dfy ===
/** The auth service (service/auth_service.go): lifetime configuration,
    token minting, login, refresh and logout. `now` is the clock reading in
    unix seconds (one reading per request), and the two token ids are the
    fresh random UUIDs the service draws. */
module AuthService {
  import opened Wrappers
  import opened Uuid
  import opened Decimal
  import opened Jwt
  import opened Model
  import opened UserService

  /** The service's configuration: token lifetimes in seconds. */
  datatype AuthConfig = AuthConfig(accessExp: int, refreshExp: int)

  const AccessMinutesKey: string := "JWT_ACCESS_TOKEN_EXPIRY_MINUTES"
  const RefreshDaysKey: string := "JWT_REFRESH_TOKEN_EXPIRY_DAYS"
  const DefaultAccessMinutes: int := 15
  const DefaultRefreshDays: int := 7
  const SecondsPerMinute: int := 60
  const SecondsPerDay: int := 86400

  /** os.Getenv: the value, or "" when the variable is unset. */
  function Getenv(env: map<string, string>, key: string): string
  {
    if key in env then env[key] else ""
  }

  /** strconv.Atoi with its error ignored, then the default for a zero. */
  function CountOrDefault(text: string, default: int): (n: int)
    ensures Atoi(text).value == 0 ==> n == default
    ensures Atoi(text).value != 0 ==> n == Atoi(text).value
  {
    var parsed := Atoi(text).value;
    if parsed == 0 then default else parsed
  }

  /** NewAuthService: lifetimes read from the environment. */
  function NewAuthService(env: map<string, string>): (cfg: AuthConfig)
    ensures cfg.accessExp == CountOrDefault(Getenv(env, AccessMinutesKey), DefaultAccessMinutes) * SecondsPerMinute
    ensures cfg.refreshExp == CountOrDefault(Getenv(env, RefreshDaysKey), DefaultRefreshDays) * SecondsPerDay
  {
    var minutes := CountOrDefault(Getenv(env, AccessMinutesKey), DefaultAccessMinutes);
    var days := CountOrDefault(Getenv(env, RefreshDaysKey), DefaultRefreshDays);
    AuthConfig(minutes * SecondsPerMinute, days * SecondsPerDay)
  }

  /** A setting that is unset or reads as 0 falls back to 15 minutes and
      7 days. */
  lemma DefaultLifetimes(env: map<string, string>)
    requires AccessMinutesKey !in env || Atoi(env[AccessMinutesKey]).value == 0
    requires RefreshDaysKey !in env || Atoi(env[RefreshDaysKey]).value == 0
    ensures NewAuthService(env) == AuthConfig(900, 604800)
  {
  }

  /** So does an unparsable setting ("", "15 ", "abc", "+"): Atoi reports
      a syntax error and reads it as 0. */
  lemma UnparsableLifetimes(env: map<string, string>)
    requires AccessMinutesKey !in env || SyntaxInvalid(env[AccessMinutesKey])
    requires RefreshDaysKey !in env || SyntaxInvalid(env[RefreshDaysKey])
    ensures NewAuthService(env) == AuthConfig(900, 604800)
  {
    if AccessMinutesKey in env {
      AtoiSyntaxError(env[AccessMinutesKey]);
    }
    if RefreshDaysKey in env {
      AtoiSyntaxError(env[RefreshDaysKey]);
    }
  }

  /** Any other int64 written in decimal is kept as it is, negatives included. */
  lemma ConfiguredLifetimes(env: map<string, string>, minutes: int, days: int)
    requires minutes != 0 && MinInt64 <= minutes <= MaxInt64
    requires days != 0 && MinInt64 <= days <= MaxInt64
    requires env == map[AccessMinutesKey := Itoa(minutes), RefreshDaysKey := Itoa(days)]
    ensures NewAuthService(env) == AuthConfig(minutes * 60, days * 86400)
  {
    AtoiItoa(minutes);
    AtoiItoa(days);
  }

  /** Minted claims: HS256, signed with the configured secret, subject, expiry
      and token id. */
  function Minted(userId: string, exp: int, jti: Uuid): Token
  {
    Token(HS256, true, Some(StringClaim(userId)), Some(NumberClaim(exp)), Some(StringClaim(Format(jti))))
  }

  /** TokenDetails. */
  datatype TokenDetails = TokenDetails(
    accessToken: string,
    refreshToken: string,
    accessUuid: string,
    refreshUuid: string,
    atExpires: int,
    rtExpires: int)

  /** CreateTokens(userID). */
  function CreateTokens(cfg: AuthConfig, c: Codec, userId: string, now: int, accessJti: Uuid, refreshJti: Uuid): (td: TokenDetails)
    ensures td.atExpires == now + cfg.accessExp && td.rtExpires == now + cfg.refreshExp
    ensures td.accessUuid == Format(accessJti) && td.refreshUuid == Format(refreshJti)
    ensures accessJti != refreshJti ==> td.accessUuid != td.refreshUuid
    ensures Sound(c) ==> c.decode(td.accessToken) == Some(Minted(userId, td.atExpires, accessJti))
    ensures Sound(c) ==> c.decode(td.refreshToken) == Some(Minted(userId, td.rtExpires, refreshJti))
  {
    var atExpires := now + cfg.accessExp;
    var rtExpires := now + cfg.refreshExp;
    FormatNotEqual(accessJti, refreshJti);
    TokenDetails(c.encode(Minted(userId, atExpires, accessJti)), c.encode(Minted(userId, rtExpires, refreshJti)),
                 Format(accessJti), Format(refreshJti), atExpires, rtExpires)
  }

  lemma FormatNotEqual(u: Uuid, v: Uuid)
    ensures u != v ==> Format(u) != Format(v)
  {
    if Format(u) == Format(v) {
      FormatInjective(u, v);
    }
  }

  /** Login(username, password): authenticate, then mint for the user's id. */
  function Login(cfg: AuthConfig, c: Codec, s: Store, username: string, password: string,
                 now: int, accessJti: Uuid, refreshJti: Uuid): (r: Result<(TokenDetails, User), AuthFailure>)
    requires UniqueUsernames(s)
    ensures Authenticate(s, username, password).Err? ==> r == Err(Authenticate(s, username, password).error)
    ensures Authenticate(s, username, password).Ok? ==>
              var u := Authenticate(s, username, password).value;
              r == Ok((CreateTokens(cfg, c, Format(u.id), now, accessJti, refreshJti), u))
  {
    var u :- Authenticate(s, username, password);
    Ok((CreateTokens(cfg, c, Format(u.id), now, accessJti, refreshJti), u))
  }

  /** The errors RefreshToken reports, in the order it checks them. */
  datatype RefreshError =
    | MalformedToken
    | UnexpectedSigningAlg
    | InvalidSignature
    | InvalidExpirationTime
    | TokenExpired
    | InvalidUserId

  /** RefreshToken(refreshToken): the claims are read as a generic map, so
      `exp` and `sub` are checked here for their JSON types. The library's
      parser refuses a token from its `exp` second on (see
      Jwt.ValidateToken), except that it reads an `exp` of 0 in a generic
      claims map as absent and lets the token through; the code's own
      "token expired" check then refuses that token. Either way the token
      is refused exactly when `exp <= now`. */
  function RefreshToken(cfg: AuthConfig, c: Codec, text: string, now: int, accessJti: Uuid, refreshJti: Uuid): (r: Result<TokenDetails, RefreshError>)
    ensures c.decode(text).None? ==> r == Err(MalformedToken)
    ensures c.decode(text).Some? ==>
              var t := c.decode(text).value;
              && (!IsHmac(t.alg) ==> r == Err(UnexpectedSigningAlg))
              && (IsHmac(t.alg) && !t.sigOk ==> r == Err(InvalidSignature))
              && (IsHmac(t.alg) && t.sigOk && !(t.exp.Some? && t.exp.value.NumberClaim?) ==> r == Err(InvalidExpirationTime))
              && (IsHmac(t.alg) && t.sigOk && t.exp.Some? && t.exp.value.NumberClaim? && t.exp.value.n <= now ==> r == Err(TokenExpired))
              && (IsHmac(t.alg) && t.sigOk && t.exp.Some? && t.exp.value.NumberClaim? && now < t.exp.value.n ==>
                    if t.sub.Some? && t.sub.value.StringClaim? then
                      r == Ok(CreateTokens(cfg, c, t.sub.value.s, now, accessJti, refreshJti))
                    else
                      r == Err(InvalidUserId))
  {
    match c.decode(text)
    case None => Err(MalformedToken)
    case Some(t) =>
      if !IsHmac(t.alg) then Err(UnexpectedSigningAlg)
      else if !t.sigOk then Err(InvalidSignature)
      else if !(t.exp.Some? && t.exp.value.NumberClaim?) then Err(InvalidExpirationTime)
      else if t.exp.value.n <= now then Err(TokenExpired)
      else if !(t.sub.Some? && t.sub.value.StringClaim?) then Err(InvalidUserId)
      else Ok(CreateTokens(cfg, c, t.sub.value.s, now, accessJti, refreshJti))
  }

  /** Logout: succeeds and leaves the store as it is. */
  function Logout(s: Store): (w: Write<()>)
    ensures w.store == s && w.result.Ok?
  {
    Write(s, Ok(()))
  }

  // Properties that relate several operations.

  /** A minted access token validates, before it expires, to its subject and
      expiry. */
  lemma AccessTokenValidates(cfg: AuthConfig, c: Codec, userId: string, now: int, aj: Uuid, rj: Uuid, later: int)
    requires Sound(c)
    requires later < now + cfg.accessExp
    ensures var td := CreateTokens(cfg, c, userId, now, aj, rj);
            ValidateToken(c, td.accessToken, later) == Ok(RegisteredClaims(userId, td.atExpires, Format(aj)))
  {
  }

  /** Once its expiry has passed, the same token is rejected. */
  lemma AccessTokenExpires(cfg: AuthConfig, c: Codec, userId: string, now: int, aj: Uuid, rj: Uuid, later: int)
    requires Sound(c)
    requires later >= now + cfg.accessExp
    ensures ValidateToken(c, CreateTokens(cfg, c, userId, now, aj, rj).accessToken, later) == Err(Expired)
  {
  }

  /** A refresh token re-mints for the same subject, any number of times,
      until its expiry second; nothing records that it was used. From that
      second on it is refused as expired. */
  lemma RefreshRotates(cfg: AuthConfig, c: Codec, userId: string, now: int, aj: Uuid, rj: Uuid,
                       later: int, aj': Uuid, rj': Uuid)
    requires Sound(c)
    ensures var td := CreateTokens(cfg, c, userId, now, aj, rj);
            && (later < td.rtExpires ==>
                  RefreshToken(cfg, c, td.refreshToken, later, aj', rj') == Ok(CreateTokens(cfg, c, userId, later, aj', rj')))
            && (td.rtExpires <= later ==> RefreshToken(cfg, c, td.refreshToken, later, aj', rj') == Err(TokenExpired))
  {
  }

  /** The refresh endpoint does not tell token kinds apart: an access token
      is accepted before its expiry second and refused from it on, exactly
      like a refresh token. */
  lemma RefreshAcceptsAccessToken(cfg: AuthConfig, c: Codec, userId: string, now: int, aj: Uuid, rj: Uuid,
                                  later: int, aj': Uuid, rj': Uuid)
    requires Sound(c)
    ensures var td := CreateTokens(cfg, c, userId, now, aj, rj);
            && (later < td.atExpires ==>
                  RefreshToken(cfg, c, td.accessToken, later, aj', rj') == Ok(CreateTokens(cfg, c, userId, later, aj', rj')))
            && (td.atExpires <= later ==> RefreshToken(cfg, c, td.accessToken, later, aj', rj') == Err(TokenExpired))
  {
  }

  /** A successful login mints for the authenticated user's canonical id,
      which is exactly what the token's subject carries. */
  lemma LoginSubject(cfg: AuthConfig, c: Codec, s: Store, username: string, password: string,
                     now: int, aj: Uuid, rj: Uuid)
    requires Valid(s) && Sound(c)
    requires Login(cfg, c, s, username, password, now, aj, rj).Ok?
    ensures var (td, u) := Login(cfg, c, s, username, password, now, aj, rj).value;
            && u in s.users.Values && u.username == username
            && c.decode(td.accessToken).value.sub == Some(StringClaim(Format(u.id)))
            && Parse(Format(u.id)) == Some(u.id)
  {
    var (td, u) := Login(cfg, c, s, username, password, now, aj, rj).value;
    ParseFormat(u.id);
  }
}

=== FILE: decimal.dfy ===
/** Go's strconv.Atoi on a 64-bit platform and its inverse strconv.Itoa,
    as the identity plane uses them to read the token lifetimes from the
    environment. Atoi scans left to right: the first character that is not a
    decimal digit is a syntax error (value 0), and the first digit that takes
    the magnitude past 2^64 - 1 is a range error; a magnitude outside the
    int64 range is clamped to the nearest bound and also reported as a range
    error. */
module Decimal {

  const MaxUint64: int := 0xFFFF_FFFF_FFFF_FFFF
  const MaxInt64: int := 0x7FFF_FFFF_FFFF_FFFF
  const MinInt64: int := -0x8000_0000_0000_0000

  predicate IsDigit(ch: char)
  {
    '0' <= ch <= '9'
  }

  function DigitValue(ch: char): nat
    requires IsDigit(ch)
  {
    ch as int - '0' as int
  }

  function DigitChar(d: nat): char
    requires d < 10
  {
    ('0' as int + d) as char
  }

  /** The outcome of scanning an unsigned decimal magnitude. */
  datatype Scan = SyntaxError | RangeError | Magnitude(n: nat)

  /** Scans the digits of `s`; defined on the prefix so that the first event
      met from the left (a bad character or an overflow) decides. */
  function ScanDigits(s: string): (r: Scan)
    ensures r.Magnitude? ==> r.n <= MaxUint64
    decreases |s|
  {
    if |s| == 0 then Magnitude(0)
    else
      match ScanDigits(s[..|s| - 1])
      case SyntaxError => SyntaxError
      case RangeError => RangeError
      case Magnitude(n) =>
        var ch := s[|s| - 1];
        if !IsDigit(ch) then SyntaxError
        else if n * 10 + DigitValue(ch) > MaxUint64 then RangeError
        else Magnitude(n * 10 + DigitValue(ch))
  }

  /** Result of Atoi: the value Go returns and whether the error was nil. */
  datatype Parsed = Parsed(value: int, ok: bool)

  /** strconv.Atoi(s). */
  function Atoi(s: string): (r: Parsed)
    ensures MinInt64 <= r.value <= MaxInt64
    ensures !r.ok && (r.value != 0) ==> r.value == MaxInt64 || r.value == MinInt64
  {
    if |s| == 0 then Parsed(0, false)
    else
      var neg := s[0] == '-';
      var body := if s[0] == '-' || s[0] == '+' then s[1..] else s;
      if |body| == 0 then Parsed(0, false)
      else
        match ScanDigits(body)
        case SyntaxError => Parsed(0, false)
        case RangeError => Parsed(if neg then MinInt64 else MaxInt64, false)
        case Magnitude(n) =>
          if !neg && n > MaxInt64 then Parsed(MaxInt64, false)
          else if neg && n > -MinInt64 then Parsed(MinInt64, false)
          else Parsed(if neg then -(n as int) else n as int, true)
  }

  /** Decimal digits of a natural number, most significant first. */
  function Digits(n: nat): (s: string)
    ensures |s| >= 1 && IsDigit(s[0])
    ensures forall k :: 0 <= k < |s| ==> IsDigit(s[k])
  {
    if n < 10 then [DigitChar(n)] else Digits(n / 10) + [DigitChar(n % 10)]
  }

  /** strconv.Itoa(n). */
  function Itoa(n: int): string
  {
    if n < 0 then "-" + Digits(-n) else Digits(n)
  }

  lemma {:induction false} ScanDigitsOf(n: nat)
    requires n <= MaxUint64
    ensures ScanDigits(Digits(n)) == Magnitude(n)
  {
    if n >= 10 {
      var s := Digits(n);
      ScanDigitsOf(n / 10);
      assert s[..|s| - 1] == Digits(n / 10);
      assert DigitValue(DigitChar(n % 10)) == n % 10;
    } else {
      assert Digits(n)[..0] == "";
      assert DigitValue(DigitChar(n)) == n;
    }
  }

  /** Atoi reads back every int64 that Itoa writes, without error. */
  lemma AtoiItoa(n: int)
    requires MinInt64 <= n <= MaxInt64
    ensures Atoi(Itoa(n)) == Parsed(n, true)
  {
    var s := Itoa(n);
    if n < 0 {
      ScanDigitsOf(-n);
      assert s[1..] == Digits(-n);
    } else {
      ScanDigitsOf(n);
    }
  }

  predicate AllDigits(s: string)
  {
    forall k :: 0 <= k < |s| ==> IsDigit(s[k])
  }

  /** The number a string of decimal digits denotes, leading zeros
      included: the reference reading of a magnitude. */
  function Value(s: string): nat
    requires AllDigits(s)
    decreases |s|
  {
    if |s| == 0 then 0 else Value(s[..|s| - 1]) * 10 + DigitValue(s[|s| - 1])
  }

  /** Scanning an all-digit string gives its value, or a range error once
      that value exceeds 2^64 - 1. */
  lemma {:induction false} ScanDigitsValue(s: string)
    requires AllDigits(s)
    ensures Value(s) <= MaxUint64 ==> ScanDigits(s) == Magnitude(Value(s))
    ensures Value(s) > MaxUint64 ==> ScanDigits(s) == RangeError
    decreases |s|
  {
    if |s| > 0 {
      var init := s[..|s| - 1];
      assert AllDigits(init) by {
        forall k | 0 <= k < |init| ensures IsDigit(init[k]) {
          assert init[k] == s[k];
        }
      }
      ScanDigitsValue(init);
    }
  }

  /** Atoi on a non-empty run of digits, bare, after '+' or after '-':
      the value is the digits' value with the sign applied, and a value
      beyond the int64 range is clamped and reported as an error. */
  lemma AtoiDigits(b: string)
    requires |b| >= 1 && AllDigits(b)
    ensures Value(b) <= MaxInt64 ==> Atoi(b) == Atoi("+" + b) == Parsed(Value(b), true)
    ensures Value(b) > MaxInt64 ==> Atoi(b) == Atoi("+" + b) == Parsed(MaxInt64, false)
    ensures Value(b) <= -MinInt64 ==> Atoi("-" + b) == Parsed(-(Value(b) as int), true)
    ensures Value(b) > -MinInt64 ==> Atoi("-" + b) == Parsed(MinInt64, false)
  {
    ScanDigitsValue(b);
    assert ("+" + b)[1..] == b;
    assert ("-" + b)[1..] == b;
  }

  /** The digits Atoi scans: `s` without a leading sign. */
  function Unsigned(s: string): (b: string)
    ensures |s| > 0 && (s[0] == '-' || s[0] == '+') ==> b == s[1..]
    ensures !(|s| > 0 && (s[0] == '-' || s[0] == '+')) ==> b == s
  {
    if |s| > 0 && (s[0] == '-' || s[0] == '+') then s[1..] else s
  }

  /** Position `k` holds the first non-digit of `s`, met before the digits
      ahead of it pass 2^64 - 1. */
  predicate StopsAt(s: string, k: int)
  {
    0 <= k < |s| && AllDigits(s[..k]) && !IsDigit(s[k]) && Value(s[..k]) <= MaxUint64
  }

  /** A setting Atoi rejects as a syntax error: nothing after the sign, or a
      non-digit reached before any overflow. */
  predicate SyntaxInvalid(s: string)
  {
    |Unsigned(s)| == 0 || exists k | 0 <= k < |Unsigned(s)| :: StopsAt(Unsigned(s), k)
  }

  /** Once a prefix scans as a syntax error, so does every extension. */
  lemma {:induction false} SyntaxErrorPersists(s: string, k: int)
    requires 0 <= k < |s| && ScanDigits(s[..k + 1]) == SyntaxError
    ensures ScanDigits(s) == SyntaxError
    decreases |s|
  {
    if k + 1 < |s| {
      var init := s[..|s| - 1];
      assert init[..k + 1] == s[..k + 1];
      SyntaxErrorPersists(init, k);
    } else {
      assert s[..k + 1] == s;
    }
  }

  /** The scan stops with a syntax error at the first non-digit. */
  lemma ScanStopsAt(s: string, k: int)
    requires StopsAt(s, k)
    ensures ScanDigits(s) == SyntaxError
  {
    ScanDigitsValue(s[..k]);
    assert s[..k + 1][..k] == s[..k];
    SyntaxErrorPersists(s, k);
  }

  /** Every syntax error reads as 0 with a non-nil error. */
  lemma AtoiSyntaxError(s: string)
    requires SyntaxInvalid(s)
    ensures Atoi(s) == Parsed(0, false)
  {
    if |Unsigned(s)| > 0 {
      var k :| StopsAt(Unsigned(s), k);
      ScanStopsAt(Unsigned(s), k);
    }
  }
}

=== FILE: http.dfy ===
/** Responses as the handlers write them: a status code and a JSON body
    (utils.RespondWithError writes `{"error": msg}`, RespondWithJSON the
    value it is given). */
module Http {
  import opened Model

  const StatusOK: int := 200
  const StatusCreated: int := 201
  const StatusBadRequest: int := 400
  const StatusUnauthorized: int := 401
  const StatusForbidden: int := 403
  const StatusNotFound: int := 404
  const StatusMethodNotAllowed: int := 405
  const StatusInternalServerError: int := 500

  datatype Body =
    | ErrorBody(error: string)
    | MessageBody(message: string)
    | UserBody(user: UserJson)
    | UserListBody(users: seq<UserJson>)
    | LoginBody(accessToken: string, refreshToken: string, userId: string, username: string, email: string, expiresIn: int)
    | RefreshBody(accessToken: string, refreshToken: string, expiresIn: int)
    | PlainBody(text: string)
    | Documentation
    | EmptyBody

  datatype Response = Response(status: int, body: Body)

  function Error(status: int, message: string): Response
  {
    Response(status, ErrorBody(message))
  }
}

=== FILE: jwt.dfy ===
/** JSON Web Tokens (RFC 7519) as the identity plane sees them, and the
    bearer-token check of utils/jwt.go. A token string is opaque; a `Codec`
    stands for the JWT library: `decode` parses a string (None when it is not
    a well-formed JWT) and reports whether its HMAC signature verifies with
    the configured secret, `encode` signs a token with that secret. */
module Jwt {
  import opened Wrappers

  /** The `alg` header parameter (section 4.1.1 of RFC 7515). */
  datatype Alg = Alg(name: string)

  const HS256: Alg := Alg("HS256")

  /** golang-jwt's SigningMethodHMAC family (section 3.2 of RFC 7518). */
  predicate IsHmac(a: Alg)
  {
    a.name == "HS256" || a.name == "HS384" || a.name == "HS512"
  }

  /** A claim value as JSON carries it. */
  datatype ClaimValue = NumberClaim(n: int) | StringClaim(s: string) | OtherClaim

  /** A decoded token: its algorithm, whether the signature verifies with the
      configured secret, and the `sub`, `exp` and `jti` claims (sections
      4.1.2, 4.1.4 and 4.1.7 of RFC 7519), each possibly absent. */
  datatype Token = Token(alg: Alg, sigOk: bool, sub: Option<ClaimValue>, exp: Option<ClaimValue>, jti: Option<ClaimValue>)

  datatype Codec = Codec(decode: string -> Option<Token>, encode: Token -> string)

  /** What the identity plane relies on from the library: a token it signs
      decodes to itself and contains no space (a compact JWT is base64url
      segments joined by dots). */
  ghost predicate Sound(c: Codec)
  {
    forall t: Token :: t.sigOk ==> c.decode(c.encode(t)) == Some(t) && ' ' !in c.encode(t)
  }

  /** jwt.RegisteredClaims after a successful parse: the subject ("" when
      absent), the expiry and the token id ("" when absent). */
  datatype RegisteredClaims = RegisteredClaims(subject: string, expiresAt: int, id: string)

  datatype JwtError = Malformed | UnexpectedSigningMethod | SignatureInvalid | NoExpiration | Expired

  /** The claims decode into jwt.RegisteredClaims: `sub` and `jti` are
      strings and `exp` is a number wherever they are present. */
  predicate RegisteredShape(t: Token)
  {
    && (t.sub.None? || t.sub.value.StringClaim?)
    && (t.exp.None? || t.exp.value.NumberClaim?)
    && (t.jti.None? || t.jti.value.StringClaim?)
  }

  function StringOr(v: Option<ClaimValue>): string
  {
    if v.Some? && v.value.StringClaim? then v.value.s else ""
  }

  /** ValidateToken(tokenString) at clock reading `now`, the current time
      rounded down to whole seconds. The library's parser accepts a token
      only while the current instant is before `exp`, which in whole seconds
      is `now < exp`; the later "has expired" check of the code refuses a
      subset of those tokens and so adds nothing. */
  function ValidateToken(c: Codec, text: string, now: int): (r: Result<RegisteredClaims, JwtError>)
    ensures c.decode(text).None? ==> r.Err?
    ensures c.decode(text).Some? ==>
              var t := c.decode(text).value;
              && (!IsHmac(t.alg) ==> r.Err?)
              && (!t.sigOk ==> r.Err?)
              && (t.exp.None? ==> r.Err?)
              && (t.exp.Some? && t.exp.value.NumberClaim? && t.exp.value.n <= now ==> r.Err?)
              && (RegisteredShape(t) && IsHmac(t.alg) && t.sigOk && t.exp.Some? && t.exp.value.n <= now ==> r == Err(Expired))
              && (RegisteredShape(t) && IsHmac(t.alg) && t.sigOk && t.exp.Some? && now < t.exp.value.n ==>
                    r == Ok(RegisteredClaims(StringOr(t.sub), t.exp.value.n, StringOr(t.jti))))
    ensures r.Ok? ==>
              var t := c.decode(text).value;
              && IsHmac(t.alg) && t.sigOk && RegisteredShape(t) && t.exp.Some?
              && r.value.subject == StringOr(t.sub) && r.value.expiresAt == t.exp.value.n
              && r.value.id == StringOr(t.jti) && now < r.value.expiresAt
  {
    match c.decode(text)
    case None => Err(Malformed)
    case Some(t) =>
      if !RegisteredShape(t) then Err(Malformed)
      else if !IsHmac(t.alg) then Err(UnexpectedSigningMethod)
      else if !t.sigOk then Err(SignatureInvalid)
      else if t.exp.None? then Err(NoExpiration)
      else if now >= t.exp.value.n then Err(Expired)
      else Ok(RegisteredClaims(StringOr(t.sub), t.exp.value.n, StringOr(t.jti)))
  }
}

=== FILE: middleware.dfy ===
/** The authentication middleware (middleware/auth_middleware.go): a
    pipeline from the Authorization header to either a denial or the request
    context with the caller's identity; and the administrator gate. */
module Middleware {
  import opened Wrappers
  import opened Text
  import opened Uuid
  import opened Jwt
  import opened Model
  import opened UserService
  import opened Http

  /** The request-scoped values under the keys "userID", "user" and "role". */
  datatype Ctx = Ctx(userId: Option<Uuid>, user: Option<User>, role: Option<string>)

  const EmptyCtx: Ctx := Ctx(None, None, None)

  /** Deny: the middleware answered and `next` is not called.
      Pass: `next` is called exactly once, with this context. */
  datatype Outcome = Deny(response: Response) | Pass(ctx: Ctx)

  const BearerScheme: string := "Bearer"
  const AdminRole: string := "Admin"

  /** The header splits on " " into exactly two parts, the first "Bearer". */
  predicate WellFormedHeader(header: string)
  {
    var parts := Split(header, ' ');
    |parts| == 2 && parts[0] == BearerScheme
  }

  /** The header format check, stated without splitting: the case-sensitive
      scheme, exactly one space, and a token with no further space. So
      "bearer x", "Bearer  x" and "Bearer a b" are all refused, while
      "Bearer " with an empty token passes this step. */
  lemma WellFormedHeaderShape(header: string)
    ensures WellFormedHeader(header) <==> |header| >= 7 && header[..7] == "Bearer " && ' ' !in header[7..]
    ensures WellFormedHeader(header) ==> Split(header, ' ')[1] == header[7..]
  {
    if WellFormedHeader(header) {
      WellFormedHeaderForward(header);
    }
    if |header| >= 7 && header[..7] == "Bearer " && ' ' !in header[7..] {
      WellFormedHeaderBackward(header);
    }
  }

  lemma {:induction false} WellFormedHeaderForward(header: string)
    requires WellFormedHeader(header)
    ensures |header| >= 7 && header[..7] == "Bearer " && ' ' !in header[7..]
    ensures Split(header, ' ')[1] == header[7..]
  {
    SplitCount(header, ' ');
    var i := IndexOf(header, ' ');
    var rest := header[i + 1..];
    assert Split(header, ' ') == [header[..i]] + Split(rest, ' ');
    SplitCount(rest, ' ');
    assert Split(rest, ' ') == [rest];
    assert header[..i] == "Bearer";
    assert i == 6;
    assert header[..7] == header[..i] + [header[i]];
  }

  lemma {:induction false} WellFormedHeaderBackward(header: string)
    requires |header| >= 7 && header[..7] == "Bearer " && ' ' !in header[7..]
    ensures WellFormedHeader(header)
  {
    assert header[6] == header[..7][6] == ' ';
    var i := IndexOf(header, ' ');
    assert forall k :: 0 <= k < 6 ==> header[k] == "Bearer "[k];
    assert i == 6;
    var rest := header[i + 1..];
    assert rest == header[7..];
    assert Split(rest, ' ') == [rest];
    assert header[..i] == "Bearer";
  }

  /** The token text of a well-formed header. */
  function BearerToken(header: string): (tok: string)
    requires WellFormedHeader(header)
    ensures header == "Bearer " + tok && ' ' !in tok
  {
    WellFormedHeaderShape(header);
    Split(header, ' ')[1]
  }

  /** Authenticate, run on the Authorization header ("" when absent), at
      clock reading `now`, over the current store. */
  function Authenticate(c: Codec, now: int, s: Store, header: string, ctx: Ctx): (o: Outcome)
    ensures header == "" ==> o == Deny(Error(StatusUnauthorized, "Authorization header is required"))
    ensures header != "" && !WellFormedHeader(header) ==>
              o == Deny(Error(StatusUnauthorized, "Authorization header format must be Bearer {token}"))
    ensures header != "" && WellFormedHeader(header) ==>
              var claims := ValidateToken(c, BearerToken(header), now);
              && (claims.Err? ==> o == Deny(Error(StatusUnauthorized, "Invalid or expired token")))
              && (claims.Ok? && Parse(claims.value.subject).None? ==>
                    o == Deny(Error(StatusUnauthorized, "Invalid user ID in token")))
              && (claims.Ok? && Parse(claims.value.subject).Some? ==>
                    var id := Parse(claims.value.subject).value;
                    && (id !in s.users ==> o == Deny(Error(StatusUnauthorized, "User not found")))
                    && (id in s.users && s.users[id].roleId !in s.roles ==>
                          o == Deny(Error(StatusInternalServerError, "Error fetching user role")))
                    && (id in s.users && s.users[id].roleId in s.roles ==>
                          o == Pass(ctx.(userId := Some(id), user := Some(s.users[id]),
                                         role := Some(s.roles[s.users[id].roleId].name)))))
    ensures o.Deny? ==> o.response.status == StatusUnauthorized || o.response.status == StatusInternalServerError
    ensures o.Pass? ==> o.ctx.userId.Some? && o.ctx.user.Some? && o.ctx.role.Some?
  {
    if header == "" then Deny(Error(StatusUnauthorized, "Authorization header is required"))
    else if !WellFormedHeader(header) then
      Deny(Error(StatusUnauthorized, "Authorization header format must be Bearer {token}"))
    else
      match ValidateToken(c, BearerToken(header), now)
      case Err(_) => Deny(Error(StatusUnauthorized, "Invalid or expired token"))
      case Ok(claims) =>
        match Parse(claims.subject)
        case None => Deny(Error(StatusUnauthorized, "Invalid user ID in token"))
        case Some(id) =>
          match GetByID(s, id)
          case Err(_) => Deny(Error(StatusUnauthorized, "User not found"))
          case Ok(user) =>
            match GetRoleByID(s, user.roleId)
            case Err(_) => Deny(Error(StatusInternalServerError, "Error fetching user role"))
            case Ok(role) => Pass(ctx.(userId := Some(id), user := Some(user), role := Some(role.name)))
  }

  /** RequireAdmin: passes the context through unchanged iff its role is
      exactly "Admin". */
  function RequireAdmin(ctx: Ctx): (o: Outcome)
    ensures o.Pass? <==> ctx.role == Some(AdminRole)
    ensures o.Pass? ==> o.ctx == ctx
    ensures o.Deny? ==> o.response == Error(StatusForbidden, "Admin permission required")
  {
    if ctx.role.None? || ctx.role.value != AdminRole then Deny(Error(StatusForbidden, "Admin permission required"))
    else Pass(ctx)
  }

  /** A header "Bearer <tok>" for a token minted for `u`, presented before the
      token expires, authenticates as `u` whether or not the account is
      active: the middleware never looks at is_active. */
  lemma MintedTokenAuthenticates(c: Codec, now: int, s: Store, u: User, tok: string, ctx: Ctx)
    requires Sound(c) && Valid(s)
    requires u.id in s.users && s.users[u.id] == u && u.roleId in s.roles
    requires ValidateToken(c, tok, now).Ok? && ValidateToken(c, tok, now).value.subject == Format(u.id)
    requires ' ' !in tok
    ensures Authenticate(c, now, s, "Bearer " + tok, ctx)
            == Pass(ctx.(userId := Some(u.id), user := Some(u), role := Some(s.roles[u.roleId].name)))
  {
    var header := "Bearer " + tok;
    assert header[..7] == "Bearer " && header[7..] == tok;
    WellFormedHeaderShape(header);
    ParseFormat(u.id);
  }
}

=== FILE: model.dfy ===
/** The persisted records of the identity plane (model/user.go and
    model/role.go) and the JSON form in which a user leaves the server. */
module Model {
  import opened Wrappers
  import opened Uuid
  import opened Password

  /** A row of the `users` table; times are unix seconds. */
  datatype User = User(
    id: Uuid,
    username: string,
    email: string,
    passwordHash: PasswordHash,
    firstName: string,
    lastName: string,
    roleId: Uuid,
    department: Option<string>,
    createdAt: int,
    updatedAt: int,
    isActive: bool)

  /** A row of the `roles` table; `permissions` is an uninterpreted JSON document. */
  datatype Role = Role(
    id: Uuid,
    name: string,
    description: string,
    permissions: string,
    createdAt: int,
    updatedAt: int)

  /** The JSON object encoding/json produces for a User: every field under its
      tag, `department` omitted when nil, and no password hash (tag "-"). */
  datatype UserJson = UserJson(
    id: string,
    username: string,
    email: string,
    firstName: string,
    lastName: string,
    roleId: string,
    department: Option<string>,
    createdAt: int,
    updatedAt: int,
    isActive: bool)

  function ToJson(u: User): UserJson
  {
    UserJson(Format(u.id), u.username, u.email, u.firstName, u.lastName,
             Format(u.roleId), u.department, u.createdAt, u.updatedAt, u.isActive)
  }

  /** Two users serialise identically exactly when they agree on every field
      except the password hash: the hash never reaches a response, and nothing
      else is lost. */
  lemma ToJsonHidesOnlyHash(u: User, v: User)
    ensures ToJson(u) == ToJson(v) <==> u.(passwordHash := v.passwordHash) == v
  {
    if ToJson(u) == ToJson(v) {
      FormatInjective(u.id, v.id);
      FormatInjective(u.roleId, v.roleId);
    }
  }
}

=== FILE: password.dfy ===
/** The password hasher (bcrypt in the system) as an abstract injective
    hash: a stored hash verifies exactly the plaintext it was made from. */
module Password {

  /** An opaque password hash; only `Hash` builds one. */
  datatype PasswordHash = Digest(preimage: string)

  /** bcrypt.GenerateFromPassword. */
  function Hash(plaintext: string): PasswordHash
  {
    Digest(plaintext)
  }

  /** bcrypt.CompareHashAndPassword succeeding. */
  predicate Verify(h: PasswordHash, plaintext: string)
  {
    h == Hash(plaintext)
  }

  /** Password round trip: a hash verifies its own plaintext and no other. */
  lemma VerifyHash(p: string, q: string)
    ensures Verify(Hash(p), q) <==> p == q
  {
  }
}

=== FILE: router.dfy ===
/** The route table of main.go: which handler a (method, path) pair reaches
    and which identity gates it passes first, following chi's matching
    rules for the two mounted sub-routers. Global middleware (logging,
    recovery, request id, real IP, timeout, CORS) touches no identity and
    is not part of this model. */
module Router {
  import opened Wrappers

  /** The two gates of the identity plane, in the order chi runs them. */
  datatype Gate = AuthenticateGate | AdminGate

  datatype Handler =
    | Login | RefreshToken | ForgotPassword | ResetPassword | Logout
    | GetCurrentUser | UpdateCurrentUser
    | GetAllUsers | CreateUser | GetUserByID(id: string) | UpdateUser(id: string) | DeleteUsers
    | SwaggerDocs
    | NotFound | MethodNotAllowed
  {
    /** The handlers registered inside the administrators' group. */
    predicate AdminOnly()
    {
      GetAllUsers? || CreateUser? || GetUserByID? || UpdateUser? || DeleteUsers?
    }

    /** The auth handlers registered outside any group. */
    predicate PublicAuth()
    {
      Login? || RefreshToken? || ForgotPassword? || ResetPassword?
    }
  }

  /** The gates a request passes, in order, and the handler it ends at. */
  datatype Dispatch = Dispatch(gates: seq<Gate>, handler: Handler)

  const AuthMount: string := "/api/v1/auth"
  const UsersMount: string := "/api/v1/users"
  const SwaggerPrefix: string := "/swagger/"

  /** The path a sub-router mounted at `mount` sees: chi hands both the
      bare mount path and the mount path with a trailing slash to the
      sub-router as "/". */
  function SubPath(path: string, mount: string): (sub: Option<string>)
    ensures sub.Some? <==> path == mount || (|path| > |mount| && path[..|mount| + 1] == mount + "/")
    ensures sub.Some? ==> |sub.value| >= 1 && sub.value[0] == '/'
    ensures sub.Some? && path != mount ==> path == mount + sub.value
  {
    if path == mount then Some("/")
    else if |path| > |mount| && path[..|mount| + 1] == mount + "/" then Some(path[|mount|..])
    else None
  }

  /** A single non-empty path segment, which is what chi binds to `{id}`. */
  predicate IsSegment(seg: string)
  {
    seg != "" && '/' !in seg
  }

  /** Routes of the /api/v1/auth sub-router: four public POST routes and a
      group whose only route, POST /logout, sits behind Authenticate. A
      method mismatch is a 405 outside the group's middleware. */
  function AuthRoutes(verb: string, sub: string): (d: Dispatch)
    ensures AdminGate !in d.gates
    ensures d.gates != [] <==> d.handler.Logout?
  {
    if sub == "/login" || sub == "/refresh-token" || sub == "/forgot-password" || sub == "/reset-password" then
      if verb != "POST" then Dispatch([], MethodNotAllowed)
      else if sub == "/login" then Dispatch([], Login)
      else if sub == "/refresh-token" then Dispatch([], RefreshToken)
      else if sub == "/forgot-password" then Dispatch([], ForgotPassword)
      else Dispatch([], ResetPassword)
    else if sub == "/logout" then
      if verb == "POST" then Dispatch([AuthenticateGate], Logout) else Dispatch([], MethodNotAllowed)
    else Dispatch([], NotFound)
  }

  /** Handlers of the /api/v1/users sub-router below its own Authenticate:
      the two /me routes directly, the rest inside the RequireAdmin group.
      The static /me takes precedence over `{id}`; since both answer GET
      and PATCH only, no other method can fall through from one to the
      other. */
  function UserRoutes(verb: string, sub: string): (d: Dispatch)
    requires |sub| >= 1 && sub[0] == '/'
    ensures d.gates == [] || d.gates == [AdminGate]
    ensures d.gates == [AdminGate] <==> d.handler.AdminOnly()
  {
    if sub == "/" then
      if verb == "GET" then Dispatch([AdminGate], GetAllUsers)
      else if verb == "POST" then Dispatch([AdminGate], CreateUser)
      else if verb == "DELETE" then Dispatch([AdminGate], DeleteUsers)
      else Dispatch([], MethodNotAllowed)
    else if sub == "/me" then
      if verb == "GET" then Dispatch([], GetCurrentUser)
      else if verb == "PATCH" then Dispatch([], UpdateCurrentUser)
      else Dispatch([], MethodNotAllowed)
    else if IsSegment(sub[1..]) then
      if verb == "GET" then Dispatch([AdminGate], GetUserByID(sub[1..]))
      else if verb == "PATCH" then Dispatch([AdminGate], UpdateUser(sub[1..]))
      else Dispatch([], MethodNotAllowed)
    else Dispatch([], NotFound)
  }

  /** The nine methods chi's router knows. */
  predicate KnownMethod(verb: string)
  {
    verb in {"CONNECT", "DELETE", "GET", "HEAD", "OPTIONS", "PATCH", "POST", "PUT", "TRACE"}
  }

  /** The whole router. chi answers any other method with 405 at the root,
      before it looks at the path. For the nine it knows, the users
      sub-router's Authenticate wraps every request the sub-router
      receives, its 404 and 405 included. */
  function Route(verb: string, path: string): (d: Dispatch)
    ensures !KnownMethod(verb) ==> d == Dispatch([], MethodNotAllowed)
    ensures KnownMethod(verb) && SubPath(path, AuthMount).Some? ==> d == AuthRoutes(verb, SubPath(path, AuthMount).value)
    ensures KnownMethod(verb) && SubPath(path, UsersMount).Some? ==>
              var inner := UserRoutes(verb, SubPath(path, UsersMount).value);
              d == Dispatch([AuthenticateGate] + inner.gates, inner.handler)
    ensures SubPath(path, AuthMount).None? && SubPath(path, UsersMount).None? ==> d.gates == []
  {
    if !KnownMethod(verb) then Dispatch([], MethodNotAllowed)
    else
      match SubPath(path, AuthMount)
      case Some(sub) => AuthRoutes(verb, sub)
      case None =>
        match SubPath(path, UsersMount)
        case Some(sub) =>
          var inner := UserRoutes(verb, sub);
          Dispatch([AuthenticateGate] + inner.gates, inner.handler)
        case None =>
          if |path| >= |SwaggerPrefix| && path[..|SwaggerPrefix|] == SwaggerPrefix then
            if verb == "GET" then Dispatch([], SwaggerDocs) else Dispatch([], MethodNotAllowed)
          else Dispatch([], NotFound)
  }

  /** `getEnv`: the value when the key is set, even to "", else the
      default. */
  function GetEnv(env: map<string, string>, key: string, default: string): (v: string)
    ensures key in env ==> v == env[key]
    ensures key !in env ==> v == default
  {
    if key in env then env[key] else default
  }

  const ServerPortKey: string := "SERVER_PORT"
  const DefaultServerPort: string := "8080"

  /** The listening port: SERVER_PORT when set, else 8080. */
  function ServerPort(env: map<string, string>): (port: string)
    ensures ServerPortKey in env ==> port == env[ServerPortKey]
    ensures ServerPortKey !in env ==> port == "8080"
  {
    GetEnv(env, ServerPortKey, DefaultServerPort)
  }

  // The gating table as a whole.

  /** The two mounts never both claim a path. */
  lemma MountsDisjoint(path: string)
    ensures SubPath(path, AuthMount).None? || SubPath(path, UsersMount).None?
  {
  }

  /** A handler is reached through the admin gate exactly when it is one
      of the five administrators' routes, and the admin gate always comes
      after Authenticate. */
  lemma AdminGateExactlyOnAdminRoutes(verb: string, path: string)
    ensures var d := Route(verb, path);
            && (AdminGate in d.gates <==> d.handler.AdminOnly())
            && (AdminGate in d.gates ==> d.gates == [AuthenticateGate, AdminGate])
  {
    MountsDisjoint(path);
  }

  /** A request under /api/v1/users meets Authenticate first, whatever it
      reaches, exactly when chi knows its method; any other method is a 405
      that passes no gate. */
  lemma UsersRoutesAuthenticateFirst(verb: string, path: string)
    requires SubPath(path, UsersMount).Some?
    ensures KnownMethod(verb) <==> |Route(verb, path).gates| >= 1 && Route(verb, path).gates[0] == AuthenticateGate
    ensures !KnownMethod(verb) ==> Route(verb, path) == Dispatch([], MethodNotAllowed)
  {
    MountsDisjoint(path);
  }

  /** The documented auth routes and their gates. */
  lemma AuthRouteTable()
    ensures Route("POST", AuthMount + "/login") == Dispatch([], Login)
    ensures Route("POST", AuthMount + "/refresh-token") == Dispatch([], RefreshToken)
    ensures Route("POST", AuthMount + "/forgot-password") == Dispatch([], ForgotPassword)
    ensures Route("POST", AuthMount + "/reset-password") == Dispatch([], ResetPassword)
    ensures Route("POST", AuthMount + "/logout") == Dispatch([AuthenticateGate], Logout)
  {
  }

  /** The documented user routes and their gates. */
  lemma UserRouteTable(id: string)
    requires IsSegment(id) && id != "me"
    ensures Route("GET", UsersMount + "/me") == Dispatch([AuthenticateGate], GetCurrentUser)
    ensures Route("PATCH", UsersMount + "/me") == Dispatch([AuthenticateGate], UpdateCurrentUser)
    ensures Route("GET", UsersMount) == Dispatch([AuthenticateGate, AdminGate], GetAllUsers)
    ensures Route("GET", UsersMount + "/") == Dispatch([AuthenticateGate, AdminGate], GetAllUsers)
    ensures Route("POST", UsersMount) == Dispatch([AuthenticateGate, AdminGate], CreateUser)
    ensures Route("DELETE", UsersMount) == Dispatch([AuthenticateGate, AdminGate], DeleteUsers)
    ensures Route("GET", UsersMount + "/" + id) == Dispatch([AuthenticateGate, AdminGate], GetUserByID(id))
    ensures Route("PATCH", UsersMount + "/" + id) == Dispatch([AuthenticateGate, AdminGate], UpdateUser(id))
  {
  }
}

=== FILE: server.dfy ===
/** One request through the whole identity plane: the route table picks
    the gates and the handler, the gates run in order and the first denial
    is the response, otherwise the handler runs on the context the gates
    built. JSON decoding of request bodies is a parameter. */
module Server {
  import opened Wrappers
  import opened Uuid
  import opened Jwt
  import opened Model
  import opened UserService
  import opened AuthService
  import opened Http
  import opened Middleware
  import opened Router
  import AuthController
  import UserController

  /** How each handler's body decodes; `None` is a body that is not valid
      JSON for that request type. */
  datatype Decoders = Decoders(
    login: string -> Option<AuthController.LoginRequest>,
    refresh: string -> Option<AuthController.RefreshTokenRequest>,
    update: string -> Option<UserController.UpdateUserRequest>,
    create: string -> Option<UserController.CreateUserRequest>,
    delete: string -> Option<UserController.DeleteUsersRequest>)

  /** Everything a request depends on besides the store: configuration,
      the token codec, the clock, and the random identifiers the request
      would draw (two token ids, one row id). */
  datatype Env = Env(cfg: AuthConfig, codec: Codec, json: Decoders, now: int,
                     accessJti: Uuid, refreshJti: Uuid, newId: Uuid)

  /** `authorization` is the Authorization header, "" when absent. */
  datatype Request = Request(verb: string, path: string, authorization: string, body: string)

  /** Runs the gates in order; the first denial stops the chain. */
  function Gatekeep(env: Env, s: Store, gates: seq<Gate>, header: string, ctx: Ctx): (o: Outcome)
    ensures gates == [] ==> o == Pass(ctx)
    ensures o.Pass? && ctx.userId.Some? && ctx.user.Some? ==> o.ctx.userId.Some? && o.ctx.user.Some?
    ensures o.Pass? && AuthenticateGate in gates ==> o.ctx.userId.Some? && o.ctx.user.Some?
    ensures o.Pass? && gates != [] && gates[|gates| - 1] == AdminGate ==> o.ctx.role == Some(AdminRole)
    ensures o.Deny? ==> gates != []
    decreases |gates|
  {
    if gates == [] then Pass(ctx)
    else
      var first := match gates[0]
        case AuthenticateGate => Middleware.Authenticate(env.codec, env.now, s, header, ctx)
        case AdminGate => RequireAdmin(ctx);
      match first
      case Deny(_) => first
      case Pass(next) => Gatekeep(env, s, gates[1..], header, next)
  }

  /** The handler a dispatch ends at, on the context the gates built. The
      listing handler runs as a method inside Serve. */
  function Handle(env: Env, s: Store, h: Handler, ctx: Ctx, body: string): (r: UserController.Handled)
    requires Valid(s)
    requires !h.GetAllUsers?
    ensures !(h.UpdateCurrentUser? || h.CreateUser? || h.UpdateUser? || h.DeleteUsers?) ==> r.store == s
    ensures Valid(r.store)
  {
    match h
    case Login =>
      UserController.Handled(s, AuthController.Login(env.cfg, env.codec, s, env.now, env.accessJti, env.refreshJti, env.json.login(body)))
    case RefreshToken =>
      UserController.Handled(s, AuthController.RefreshToken(env.cfg, env.codec, env.now, env.accessJti, env.refreshJti, env.json.refresh(body)))
    case ForgotPassword => UserController.Handled(s, AuthController.ForgotPassword())
    case ResetPassword => UserController.Handled(s, AuthController.ResetPassword())
    case Logout => UserController.Handled(s, AuthController.Logout())
    case GetCurrentUser => UserController.Handled(s, UserController.GetCurrentUser(s, ctx))
    case UpdateCurrentUser =>
      UserController.UpdateCurrentUserPreservesValid(s, ctx, env.json.update(body), env.now);
      UserController.UpdateCurrentUser(s, ctx, env.json.update(body), env.now)
    case CreateUser =>
      UserController.CreateUserPreservesValid(s, env.json.create(body), env.newId, env.now);
      UserController.CreateUser(s, env.json.create(body), env.newId, env.now)
    case GetUserByID(id) => UserController.Handled(s, UserController.GetUserByID(s, id))
    case UpdateUser(id) =>
      UserController.UpdateUserPreservesValid(s, id, env.json.update(body), env.now);
      UserController.UpdateUser(s, id, env.json.update(body), env.now)
    case DeleteUsers =>
      UserController.DeleteUsersPreservesValid(s, env.json.delete(body));
      UserController.DeleteUsers(s, env.json.delete(body))
    case SwaggerDocs => UserController.Handled(s, Response(StatusOK, Documentation))
    case NotFound => UserController.Handled(s, Response(StatusNotFound, PlainBody("404 page not found\n")))
    case MethodNotAllowed => UserController.Handled(s, Response(StatusMethodNotAllowed, EmptyBody))
  }

  /** One request, start to finish. */
  method Serve(env: Env, s: Store, req: Request) returns (r: UserController.Handled)
    requires Valid(s)
    ensures Valid(r.store)
    ensures var d := Route(req.verb, req.path);
            var o := Gatekeep(env, s, d.gates, req.authorization, EmptyCtx);
            && (o.Deny? ==> r == UserController.Handled(s, o.response))
            && (o.Pass? && !d.handler.GetAllUsers? ==> r == Handle(env, s, d.handler, o.ctx, req.body))
            && (d.gates == [] ==> !d.handler.GetAllUsers? && r == Handle(env, s, d.handler, EmptyCtx, req.body))
            && (o.Pass? && d.handler.GetAllUsers? ==>
                  && r.store == s && r.response.status == StatusOK && r.response.body.UserListBody?
                  && |r.response.body.users| == |s.users|
                  && forall j :: j in r.response.body.users <==> exists u :: u in s.users.Values && j == ToJson(u))
  {
    var d := Route(req.verb, req.path);
    AdminGateExactlyOnAdminRoutes(req.verb, req.path);
    match Gatekeep(env, s, d.gates, req.authorization, EmptyCtx)
    case Deny(resp) =>
      r := UserController.Handled(s, resp);
    case Pass(ctx) =>
      if d.handler.GetAllUsers? {
        var resp := UserController.GetAllUsers(s);
        r := UserController.Handled(s, resp);
      } else {
        r := Handle(env, s, d.handler, ctx, req.body);
      }
  }

  // The gates as the routes apply them.

  /** On every administrators' route, a caller whom Authenticate accepts
      but whose role is not "Admin" is refused with 403 before any handler
      runs, and an administrator passes both gates. */
  lemma {:induction false} NonAdminsForbidden(env: Env, s: Store, req: Request)
    requires Route(req.verb, req.path).handler.AdminOnly()
    requires Middleware.Authenticate(env.codec, env.now, s, req.authorization, EmptyCtx).Pass?
    ensures var ctx := Middleware.Authenticate(env.codec, env.now, s, req.authorization, EmptyCtx).ctx;
            var o := Gatekeep(env, s, Route(req.verb, req.path).gates, req.authorization, EmptyCtx);
            && (ctx.role != Some(AdminRole) ==> o == Deny(Error(StatusForbidden, "Admin permission required")))
            && (ctx.role == Some(AdminRole) ==> o == Pass(ctx))
  {
    AdminGateExactlyOnAdminRoutes(req.verb, req.path);
    var gates := Route(req.verb, req.path).gates;
    assert gates == [AuthenticateGate, AdminGate];
    var ctx := Middleware.Authenticate(env.codec, env.now, s, req.authorization, EmptyCtx).ctx;
    assert gates[1..][1..] == [];
    assert Gatekeep(env, s, gates, req.authorization, EmptyCtx) == Gatekeep(env, s, gates[1..], req.authorization, ctx);
  }

  /** On every gated route, a request Authenticate refuses gets exactly
      Authenticate's refusal, whatever handler it was headed for. */
  lemma {:induction false} AuthenticateGuardsGatedRoutes(env: Env, s: Store, req: Request)
    requires AuthenticateGate in Route(req.verb, req.path).gates
    requires Middleware.Authenticate(env.codec, env.now, s, req.authorization, EmptyCtx).Deny?
    ensures Gatekeep(env, s, Route(req.verb, req.path).gates, req.authorization, EmptyCtx)
              == Middleware.Authenticate(env.codec, env.now, s, req.authorization, EmptyCtx)
  {
    var d := Route(req.verb, req.path);
    AdminGateExactlyOnAdminRoutes(req.verb, req.path);
    MountsDisjoint(req.path);
    assert d.gates[0] == AuthenticateGate;
  }

  /** The routes without a gate are exactly the four public auth routes,
      Swagger and the router's own 404 and 405; their handler runs on the
      empty context, so the Authorization header changes nothing, and none
      of them writes to the store. */
  lemma UngatedRoutes(env: Env, s: Store, req: Request, header: string)
    requires Valid(s)
    requires Route(req.verb, req.path).gates == []
    ensures var d := Route(req.verb, req.path);
            && (d.handler.PublicAuth() || d.handler.SwaggerDocs? || d.handler.NotFound? || d.handler.MethodNotAllowed?)
            && Gatekeep(env, s, d.gates, req.authorization, EmptyCtx) == Gatekeep(env, s, d.gates, header, EmptyCtx) == Pass(EmptyCtx)
            && Handle(env, s, d.handler, EmptyCtx, req.body).store == s
  {
    AdminGateExactlyOnAdminRoutes(req.verb, req.path);
  }
}

=== FILE: text.dfy ===
/** String predicates and operations the identity plane relies on: substring
    search (Go's strings.Contains) and splitting on one separator character
    (Go's strings.Split with a one-character separator). */
module Text {

  /** `t` occurs in `s` starting at index `i`. */
  predicate OccursAt(s: string, t: string, i: int)
  {
    0 <= i <= |s| - |t| && s[i..i + |t|] == t
  }

  /** Go's strings.Contains(s, t). */
  predicate Contains(s: string, t: string)
  {
    exists i | 0 <= i <= |s| - |t| :: OccursAt(s, t, i)
  }

  /** A string contains every prefix-aligned piece of a concatenation. */
  lemma ContainsLeft(a: string, b: string, t: string)
    requires Contains(a, t)
    ensures Contains(a + b, t)
  {
    var i :| 0 <= i <= |a| - |t| && OccursAt(a, t, i);
    assert (a + b)[i..i + |t|] == a[i..i + |t|];
    assert OccursAt(a + b, t, i);
  }

  lemma ContainsRight(a: string, b: string, t: string)
    requires Contains(b, t)
    ensures Contains(a + b, t)
  {
    var i :| 0 <= i <= |b| - |t| && OccursAt(b, t, i);
    assert (a + b)[|a| + i..|a| + i + |t|] == b[i..i + |t|];
    assert OccursAt(a + b, t, |a| + i);
  }

  /** An occurrence of a separator-free string in `a + [c] + b` lies wholly in
      `a` or wholly in `b`: this lets a search in a long message be reduced to
      a search in each of its words. */
  lemma {:induction false} ContainsAcrossSeparator(a: string, c: char, b: string, t: string)
    requires c !in t
    ensures Contains(a + [c] + b, t) <==> Contains(a, t) || Contains(b, t)
  {
    var s := a + [c] + b;
    if Contains(s, t) {
      var i :| 0 <= i <= |s| - |t| && OccursAt(s, t, i);
      if i + |t| <= |a| {
        assert s[i..i + |t|] == a[i..i + |t|];
        assert OccursAt(a, t, i);
      } else if i > |a| {
        assert s[i..i + |t|] == b[i - |a| - 1..i - |a| - 1 + |t|];
        assert OccursAt(b, t, i - |a| - 1);
      } else {
        WindowChar(s, t, i, |a|);
        assert false;
      }
    }
    if Contains(a, t) {
      ContainsLeft(a, [c] + b, t);
      assert a + ([c] + b) == s;
    }
    if Contains(b, t) {
      ContainsRight(a + [c], b, t);
    }
  }

  /** Every character under an occurrence of `t` is a character of `t`. */
  lemma WindowChar(s: string, t: string, i: int, k: int)
    requires OccursAt(s, t, i) && i <= k < i + |t|
    ensures s[k] in t
  {
    assert s[k] == s[i..i + |t|][k - i];
  }

  /** A string lacking one of `t`'s characters cannot contain `t`. */
  lemma CharMissing(s: string, t: string, k: int)
    requires 0 <= k < |t| && t[k] !in s
    ensures !Contains(s, t)
  {
    forall i | 0 <= i <= |s| - |t|
      ensures !OccursAt(s, t, i)
    {
      assert s[i..i + |t|][k] == s[i + k];
    }
  }

  /** Index of the first occurrence of `c` in `s`. */
  function IndexOf(s: string, c: char): (i: nat)
    requires c in s
    ensures i < |s| && s[i] == c && c !in s[..i]
  {
    if s[0] == c then 0 else 1 + IndexOf(s[1..], c)
  }

  /** Go's strings.Split(s, [c]): the pieces between successive occurrences of
      `c`, keeping empty pieces; an empty string splits into one empty piece. */
  function Split(s: string, c: char): (parts: seq<string>)
    ensures |parts| >= 1
    decreases |s|
  {
    if c in s then
      var i := IndexOf(s, c);
      [s[..i]] + Split(s[i + 1..], c)
    else
      [s]
  }

  /** Go's strings.Join(parts, [c]). */
  function Join(parts: seq<string>, c: char): string
    requires |parts| >= 1
  {
    if |parts| == 1 then parts[0] else parts[0] + [c] + Join(parts[1..], c)
  }

  /** Splitting loses nothing: the pieces are separator-free and joining them
      back with the separator gives the original string. */
  lemma {:induction false} SplitJoin(s: string, c: char)
    ensures Join(Split(s, c), c) == s
    ensures forall k :: 0 <= k < |Split(s, c)| ==> c !in Split(s, c)[k]
    decreases |s|
  {
    if c in s {
      var i := IndexOf(s, c);
      SplitJoin(s[i + 1..], c);
      assert Split(s, c)[1..] == Split(s[i + 1..], c);
      assert s == s[..i] + [c] + s[i + 1..];
    }
  }

  /** The number of pieces is one more than the number of separators. */
  lemma {:induction false} SplitCount(s: string, c: char)
    ensures |Split(s, c)| == 1 <==> c !in s
    ensures |Split(s, c)| == 2 <==> c in s && c !in s[IndexOf(s, c) + 1..]
    decreases |s|
  {
    if c in s {
      var i := IndexOf(s, c);
      SplitCount(s[i + 1..], c);
    }
  }
}

=== FILE: user_controller.dfy ===
/** The user handlers (controller/user_controller.go). A request body that
    is not valid JSON is `None`; a path parameter is the raw text chi
    extracted. Each handler that writes returns the store it leaves behind
    together with its response. */
module UserController {
  import opened Wrappers
  import opened Text
  import opened Uuid
  import opened Password
  import opened Model
  import opened UserService
  import opened Http
  import opened Middleware

  datatype CreateUserRequest = CreateUserRequest(
    username: string, email: string, password: string, firstName: string, lastName: string,
    roleId: Uuid, department: Option<string>, isActive: bool)

  /** Fields the JSON body leaves out decode as zero values: "" for names,
      the nil UUID for the role, false for `is_active`, `None` for the
      department. */
  datatype UpdateUserRequest = UpdateUserRequest(
    firstName: string, lastName: string, department: Option<string>, roleId: Uuid, isActive: bool)

  datatype DeleteUsersRequest = DeleteUsersRequest(ids: seq<Uuid>)

  datatype Handled = Handled(store: Store, response: Response)

  /** GET /api/v1/users/me. */
  function GetCurrentUser(s: Store, ctx: Ctx): (resp: Response)
    ensures ctx.userId.None? ==> resp == Error(StatusUnauthorized, "User ID not found in context")
    ensures ctx.userId.Some? && ctx.userId.value !in s.users ==> resp == Error(StatusNotFound, "User not found")
    ensures ctx.userId.Some? && ctx.userId.value in s.users ==>
              resp == Response(StatusOK, UserBody(ToJson(s.users[ctx.userId.value])))
  {
    match ctx.userId
    case None => Error(StatusUnauthorized, "User ID not found in context")
    case Some(id) =>
      match GetByID(s, id)
      case Err(_) => Error(StatusNotFound, "User not found")
      case Ok(u) => Response(StatusOK, UserBody(ToJson(u)))
  }

  /** PATCH /api/v1/users/me: only the names and the department are taken
      from the request; the role and the active flag are written back as
      stored. */
  function UpdateCurrentUser(s: Store, ctx: Ctx, req: Option<UpdateUserRequest>, now: int): (h: Handled)
    ensures ctx.userId.None? ==> h == Handled(s, Error(StatusUnauthorized, "User ID not found in context"))
    ensures ctx.userId.Some? && req.None? ==> h == Handled(s, Error(StatusBadRequest, "Invalid request payload"))
    ensures ctx.userId.Some? && req.Some? && ctx.userId.value !in s.users ==>
              h == Handled(s, Error(StatusNotFound, "User not found"))
    ensures Valid(s) && ctx.userId.Some? && req.Some? && ctx.userId.value in s.users ==>
              var before := s.users[ctx.userId.value];
              var r := req.value;
              var after := before.(firstName := r.firstName, lastName := r.lastName, department := r.department, updatedAt := now);
              && h.store == Store(s.users[ctx.userId.value := after], s.roles)
              && h.response == Response(StatusOK, UserBody(ToJson(after)))
  {
    match ctx.userId
    case None => Handled(s, Error(StatusUnauthorized, "User ID not found in context"))
    case Some(id) =>
      match req
      case None => Handled(s, Error(StatusBadRequest, "Invalid request payload"))
      case Some(r) =>
        match GetByID(s, id)
        case Err(_) => Handled(s, Error(StatusNotFound, "User not found"))
        case Ok(u) =>
          var edited := u.(firstName := r.firstName, lastName := r.lastName, department := r.department);
          var w := Update(s, edited, now);
          match w.result
          case Err(_) => Handled(w.store, Error(StatusInternalServerError, "Error updating user"))
          case Ok(stamp) => Handled(w.store, Response(StatusOK, UserBody(ToJson(edited.(updatedAt := stamp)))))
  }

  /** GET /api/v1/users: every stored user, each once. The listing cannot
      fail here, so the 500 "Error fetching users" branch is unreachable. */
  method GetAllUsers(s: Store) returns (resp: Response)
    ensures resp.status == StatusOK && resp.body.UserListBody?
    ensures |resp.body.users| == |s.users|
    ensures forall j :: j in resp.body.users <==> exists u :: u in s.users.Values && j == ToJson(u)
  {
    var users := GetAll(s);
    var listed := seq(|users|, i requires 0 <= i < |users| => ToJson(users[i]));
    forall j | j in listed
      ensures exists u :: u in s.users.Values && j == ToJson(u)
    {
      var i :| 0 <= i < |listed| && listed[i] == j;
      assert users[i] in s.users.Values;
    }
    forall u | u in s.users.Values
      ensures ToJson(u) in listed
    {
      var i :| 0 <= i < |users| && users[i] == u;
      assert listed[i] == ToJson(u);
    }
    resp := Response(StatusOK, UserListBody(listed));
  }

  /** The three messages a unique violation can be reported under, chosen
      by substring search in the driver's error text, and the 500 for any
      other error. */
  function CreateErrorResponse(err: string): (resp: Response)
    ensures !Contains(err, "duplicate key") <==> resp == Error(StatusInternalServerError, "Error creating user")
    ensures resp == Error(StatusBadRequest, "Username already exists") <==>
              Contains(err, "duplicate key") && Contains(err, "username")
    ensures resp == Error(StatusBadRequest, "Email already exists") <==>
              Contains(err, "duplicate key") && !Contains(err, "username") && Contains(err, "email")
    ensures resp == Error(StatusBadRequest, "User already exists") <==>
              Contains(err, "duplicate key") && !Contains(err, "username") && !Contains(err, "email")
  {
    if Contains(err, "duplicate key") then
      if Contains(err, "username") then Error(StatusBadRequest, "Username already exists")
      else if Contains(err, "email") then Error(StatusBadRequest, "Email already exists")
      else Error(StatusBadRequest, "User already exists")
    else Error(StatusInternalServerError, "Error creating user")
  }

  /** The five text fields a new user must have. */
  predicate RequiredFieldsPresent(r: CreateUserRequest)
  {
    r.username != "" && r.email != "" && r.password != "" && r.firstName != "" && r.lastName != ""
  }

  /** The record the handler hands to the store: identity, hash and
      timestamps are zero values that the insert fills in. */
  function Draft(r: CreateUserRequest): User
  {
    User(Nil, r.username, r.email, Digest(""), r.firstName, r.lastName, r.roleId, r.department, 0, 0, r.isActive)
  }

  /** POST /api/v1/users. */
  function CreateUser(s: Store, req: Option<CreateUserRequest>, newId: Uuid, now: int): (h: Handled)
    ensures req.None? ==> h == Handled(s, Error(StatusBadRequest, "Invalid request payload"))
    ensures req.Some? && !RequiredFieldsPresent(req.value) ==> h == Handled(s, Error(StatusBadRequest, "Required fields are missing"))
    ensures req.Some? && RequiredFieldsPresent(req.value) ==>
              var w := UserService.Create(s, Draft(req.value), req.value.password, newId, now);
              && h.store == w.store
              && (w.result.Err? ==> h.response == CreateErrorResponse(ErrorText(w.result.error)))
              && (w.result.Ok? ==> h.response == Response(StatusCreated, UserBody(ToJson(w.result.value))))
  {
    match req
    case None => Handled(s, Error(StatusBadRequest, "Invalid request payload"))
    case Some(r) =>
      if !RequiredFieldsPresent(r) then Handled(s, Error(StatusBadRequest, "Required fields are missing"))
      else
        var w := UserService.Create(s, Draft(r), r.password, newId, now);
        match w.result
        case Err(e) => Handled(w.store, CreateErrorResponse(ErrorText(e)))
        case Ok(u) => Handled(w.store, Response(StatusCreated, UserBody(ToJson(u))))
  }

  /** The `{id}` checks GetUserByID and UpdateUser share. */
  function PathId(idParam: string): (r: Result<Uuid, Response>)
    ensures idParam == "" ==> r == Err(Error(StatusBadRequest, "User ID is required"))
    ensures idParam != "" && Parse(idParam).None? ==> r == Err(Error(StatusBadRequest, "Invalid user ID format"))
    ensures idParam != "" && Parse(idParam).Some? ==> r == Ok(Parse(idParam).value)
  {
    if idParam == "" then Err(Error(StatusBadRequest, "User ID is required"))
    else match Parse(idParam)
      case None => Err(Error(StatusBadRequest, "Invalid user ID format"))
      case Some(id) => Ok(id)
  }

  /** GET /api/v1/users/{id}. */
  function GetUserByID(s: Store, idParam: string): (resp: Response)
    ensures PathId(idParam).Err? ==> resp == PathId(idParam).error
    ensures PathId(idParam).Ok? && PathId(idParam).value !in s.users ==> resp == Error(StatusNotFound, "User not found")
    ensures PathId(idParam).Ok? && PathId(idParam).value in s.users ==>
              resp == Response(StatusOK, UserBody(ToJson(s.users[PathId(idParam).value])))
  {
    match PathId(idParam)
    case Err(bad) => bad
    case Ok(id) =>
      match GetByID(s, id)
      case Err(_) => Error(StatusNotFound, "User not found")
      case Ok(u) => Response(StatusOK, UserBody(ToJson(u)))
  }

  /** PATCH /api/v1/users/{id}: all five updatable fields are overwritten,
      so a field the request leaves out is reset to its zero value. */
  function UpdateUser(s: Store, idParam: string, req: Option<UpdateUserRequest>, now: int): (h: Handled)
    ensures PathId(idParam).Err? ==> h == Handled(s, PathId(idParam).error)
    ensures PathId(idParam).Ok? && req.None? ==> h == Handled(s, Error(StatusBadRequest, "Invalid request payload"))
    ensures PathId(idParam).Ok? && req.Some? && PathId(idParam).value !in s.users ==>
              h == Handled(s, Error(StatusNotFound, "User not found"))
    ensures Valid(s) && PathId(idParam).Ok? && req.Some? && PathId(idParam).value in s.users ==>
              var id := PathId(idParam).value;
              var r := req.value;
              var after := s.users[id].(firstName := r.firstName, lastName := r.lastName, department := r.department,
                                        roleId := r.roleId, isActive := r.isActive, updatedAt := now);
              && h.store == Store(s.users[id := after], s.roles)
              && h.response == Response(StatusOK, UserBody(ToJson(after)))
  {
    match PathId(idParam)
    case Err(bad) => Handled(s, bad)
    case Ok(id) =>
      match req
      case None => Handled(s, Error(StatusBadRequest, "Invalid request payload"))
      case Some(r) =>
        match GetByID(s, id)
        case Err(_) => Handled(s, Error(StatusNotFound, "User not found"))
        case Ok(u) =>
          var edited := u.(firstName := r.firstName, lastName := r.lastName, department := r.department,
                           roleId := r.roleId, isActive := r.isActive);
          var w := Update(s, edited, now);
          match w.result
          case Err(_) => Handled(w.store, Error(StatusInternalServerError, "Error updating user"))
          case Ok(stamp) => Handled(w.store, Response(StatusOK, UserBody(ToJson(edited.(updatedAt := stamp)))))
  }

  /** DELETE /api/v1/users: identifiers that match no user are ignored and
      the reply is the same. */
  function DeleteUsers(s: Store, req: Option<DeleteUsersRequest>): (h: Handled)
    ensures req.None? ==> h == Handled(s, Error(StatusBadRequest, "Invalid request payload"))
    ensures req.Some? && |req.value.ids| == 0 ==> h == Handled(s, Error(StatusBadRequest, "No user IDs provided"))
    ensures req.Some? && |req.value.ids| > 0 ==>
              && h.response == Response(StatusOK, MessageBody("Users deleted successfully"))
              && h.store.roles == s.roles
              && (forall id :: id in h.store.users <==> id in s.users && id !in req.value.ids)
              && (forall id :: id in h.store.users ==> h.store.users[id] == s.users[id])
  {
    match req
    case None => Handled(s, Error(StatusBadRequest, "Invalid request payload"))
    case Some(r) =>
      if |r.ids| == 0 then Handled(s, Error(StatusBadRequest, "No user IDs provided"))
      else
        var w := Delete(s, r.ids);
        match w.result
        case Err(_) => Handled(w.store, Error(StatusInternalServerError, "Error deleting users"))
        case Ok(_) => Handled(w.store, Response(StatusOK, MessageBody("Users deleted successfully")))
  }

  // What the driver's unique-violation text says, word by word.

  /** Every unique-violation message mentions "duplicate key". */
  lemma ViolationSaysDuplicateKey(c: string)
    ensures Contains(ErrorText(UniqueViolation(c)), "duplicate key")
  {
    assert OccursAt(ViolationPrefix, "duplicate key", 7);
    ContainsLeft(ViolationPrefix, "\"" + c + "\"" + ViolationSuffix, "duplicate key");
    assert ErrorText(UniqueViolation(c)) == ViolationPrefix + ("\"" + c + "\"" + ViolationSuffix);
  }

  /** The fixed words of the message mention neither column: neither
      contains an "m". */
  lemma FixedWordsMentionNoColumn(t: string)
    requires t == "username" || t == "email"
    ensures !Contains(ViolationPrefix, t) && !Contains(ViolationSuffix, t)
  {
    var k := if t == "username" then 6 else 1;
    assert t[k] == 'm' && 'm' !in ViolationPrefix && 'm' !in ViolationSuffix;
    CharMissing(ViolationPrefix, t, k);
    CharMissing(ViolationSuffix, t, k);
  }

  /** A unique-violation message mentions a column name exactly when the
      quoted constraint name does. */
  lemma ViolationMentions(c: string, t: string)
    requires t == "username" || t == "email"
    ensures Contains(ErrorText(UniqueViolation(c)), t) <==> Contains(c, t)
  {
    assert ErrorText(UniqueViolation(c)) == ViolationPrefix + ['"'] + (c + ['"'] + ViolationSuffix);
    ContainsAcrossSeparator(ViolationPrefix, '"', c + ['"'] + ViolationSuffix, t);
    ContainsAcrossSeparator(c, '"', ViolationSuffix, t);
    FixedWordsMentionNoColumn(t);
  }

  /** The three constraint names, read as the handler reads them. */
  lemma ConstraintNamesMention()
    ensures Contains(UsernameKey, "username")
    ensures !Contains(EmailKey, "username") && Contains(EmailKey, "email")
    ensures !Contains(PrimaryKey, "username") && !Contains(PrimaryKey, "email")
  {
    assert OccursAt(UsernameKey, "username", 6);
    assert OccursAt(EmailKey, "email", 6);
    CharMissing(EmailKey, "username", 4);
    CharMissing(PrimaryKey, "username", 6);
    CharMissing(PrimaryKey, "email", 1);
  }

  /** Each store-level conflict is reported under its own message: an
      identifier collision as "User already exists", a taken username
      (checked first) as "Username already exists", a taken email as
      "Email already exists"; nothing is stored in any of these cases. */
  lemma {:induction false} DuplicateMessages(s: Store, r: CreateUserRequest, newId: Uuid, now: int)
    requires RequiredFieldsPresent(r)
    ensures var h := CreateUser(s, Some(r), newId, now);
            && (newId in s.users ==> h == Handled(s, Error(StatusBadRequest, "User already exists")))
            && (newId !in s.users && UsernameTaken(s, r.username) ==>
                  h == Handled(s, Error(StatusBadRequest, "Username already exists")))
            && (newId !in s.users && !UsernameTaken(s, r.username) && EmailTaken(s, r.email) ==>
                  h == Handled(s, Error(StatusBadRequest, "Email already exists")))
  {
    ConstraintNamesMention();
    ViolationSaysDuplicateKey(PrimaryKey);
    ViolationSaysDuplicateKey(UsernameKey);
    ViolationSaysDuplicateKey(EmailKey);
    ViolationMentions(PrimaryKey, "username");
    ViolationMentions(PrimaryKey, "email");
    ViolationMentions(UsernameKey, "username");
    ViolationMentions(EmailKey, "username");
    ViolationMentions(EmailKey, "email");
  }

  /** Changing one's own profile never changes one's role or active flag,
      whatever the request carries; the identity fields stay as well. */
  lemma SelfUpdateKeepsPrivileges(s: Store, ctx: Ctx, req: UpdateUserRequest, now: int)
    requires Valid(s) && ctx.userId.Some? && ctx.userId.value in s.users
    ensures var h := UpdateCurrentUser(s, ctx, Some(req), now);
            var before, after := s.users[ctx.userId.value], h.store.users[ctx.userId.value];
            && after.roleId == before.roleId && after.isActive == before.isActive
            && after.id == before.id && after.username == before.username && after.email == before.email
            && after.passwordHash == before.passwordHash && after.createdAt == before.createdAt
  {
  }

  /** The admin update writes the request's role and active flag, so a body
      without `is_active` deactivates the user. */
  lemma AdminUpdateResetsOmittedFlag(s: Store, idParam: string, req: UpdateUserRequest, now: int)
    requires Valid(s) && PathId(idParam).Ok? && PathId(idParam).value in s.users
    requires !req.isActive
    ensures !UpdateUser(s, idParam, Some(req), now).store.users[PathId(idParam).value].isActive
    ensures UpdateUser(s, idParam, Some(req), now).store.users[PathId(idParam).value].roleId == req.roleId
  {
  }

  /** Every handler that writes keeps the store's invariants. */
  lemma UpdateCurrentUserPreservesValid(s: Store, ctx: Ctx, req: Option<UpdateUserRequest>, now: int)
    requires Valid(s)
    ensures Valid(UpdateCurrentUser(s, ctx, req, now).store)
  {
    if ctx.userId.Some? && req.Some? && ctx.userId.value in s.users {
      var u := s.users[ctx.userId.value];
      UpdatePreservesValid(s, u.(firstName := req.value.firstName, lastName := req.value.lastName,
                                 department := req.value.department), now);
    }
  }

  lemma UpdateUserPreservesValid(s: Store, idParam: string, req: Option<UpdateUserRequest>, now: int)
    requires Valid(s)
    ensures Valid(UpdateUser(s, idParam, req, now).store)
  {
    if PathId(idParam).Ok? && req.Some? && PathId(idParam).value in s.users {
      var r := req.value;
      var u := s.users[PathId(idParam).value];
      UpdatePreservesValid(s, u.(firstName := r.firstName, lastName := r.lastName, department := r.department,
                                 roleId := r.roleId, isActive := r.isActive), now);
    }
  }

  lemma CreateUserPreservesValid(s: Store, req: Option<CreateUserRequest>, newId: Uuid, now: int)
    requires Valid(s)
    ensures Valid(CreateUser(s, req, newId, now).store)
  {
    if req.Some? && RequiredFieldsPresent(req.value) {
      CreatePreservesValid(s, Draft(req.value), req.value.password, newId, now);
    }
  }

  lemma DeleteUsersPreservesValid(s: Store, req: Option<DeleteUsersRequest>)
    requires Valid(s)
    ensures Valid(DeleteUsers(s, req).store)
  {
    if req.Some? {
      DeletePreservesValid(s, req.value.ids);
    }
  }
}

=== FILE: user_service.dfy ===
/** The user repository (service/user_service.go) over an in-memory store in
    place of the `users` and `roles` tables. Each operation is one SQL
    statement in the system and one map operation here; `now` stands for the
    database's CURRENT_TIMESTAMP and `newId` for the identifier the database
    generates on insert. */
module UserService {
  import opened Wrappers
  import opened Uuid
  import opened Password
  import opened Model

  datatype Store = Store(users: map<Uuid, User>, roles: map<Uuid, Role>)

  /** The database's own guarantees: rows are keyed by their id (primary key)
      and `username` and `email` are unique (unique indexes). */
  ghost predicate Valid(s: Store)
  {
    && (forall id :: id in s.users ==> s.users[id].id == id)
    && UniqueUsernames(s)
    && (forall a, b :: a in s.users && b in s.users && s.users[a].email == s.users[b].email ==> a == b)
  }

  ghost predicate UniqueUsernames(s: Store)
  {
    forall a, b :: a in s.users && b in s.users && s.users[a].username == s.users[b].username ==> a == b
  }

  /** Timestamps are ordered and none lies after the clock reading `now`. */
  ghost predicate Chronological(s: Store, now: int)
  {
    forall id :: id in s.users ==> s.users[id].createdAt <= s.users[id].updatedAt <= now
  }

  /** Errors the database reports. `UniqueViolation` names the violated
      constraint; PostgreSQL's default names are used for the primary key
      and the two unique indexes. */
  datatype DbError = NoRows | UniqueViolation(constraint: string)

  const PrimaryKey: string := "users_pkey"
  const UsernameKey: string := "users_username_key"
  const EmailKey: string := "users_email_key"

  /** The fixed text around the quoted constraint name in pgx's rendering of
      a unique violation (SQLSTATE 23505). */
  const ViolationPrefix: string :=
    "ERROR:" + " " + "duplicate" + " " + "key" + " " + "value" + " " + "violates" + " " + "unique" + " " + "constraint" + " "
  const ViolationSuffix: string := " " + "(SQLSTATE" + " " + "23505)"

  /** `err.Error()` of the driver's error values: pgx's "no rows" text, and
      for a violation its "SEVERITY: message (SQLSTATE code)" rendering of
      PostgreSQL's English message, which quotes the constraint name after
      a fixed prefix. */
  function ErrorText(e: DbError): (t: string)
    ensures e.NoRows? ==> |t| < |ViolationPrefix|
    ensures e.UniqueViolation? ==>
              && |t| == |ViolationPrefix| + |e.constraint| + 2 + |ViolationSuffix|
              && t[..|ViolationPrefix|] == ViolationPrefix
              && t[|ViolationPrefix| + 1..|ViolationPrefix| + 1 + |e.constraint|] == e.constraint
  {
    match e
    case NoRows => "no rows in result set"
    case UniqueViolation(c) => ViolationPrefix + "\"" + c + "\"" + ViolationSuffix
  }

  /** Different errors have different texts, so a handler that inspects
      the text can in principle tell every error apart. */
  lemma ErrorTextInjective(e1: DbError, e2: DbError)
    requires ErrorText(e1) == ErrorText(e2)
    ensures e1 == e2
  {
    if e1.UniqueViolation? && e2.UniqueViolation? {
      var t := ErrorText(e1);
      assert e1.constraint == t[|ViolationPrefix| + 1..|ViolationPrefix| + 1 + |e1.constraint|];
    }
  }

  /** The store after a write and what the statement returned. */
  datatype Write<T> = Write(store: Store, result: Result<T, DbError>)

  predicate UsernameTaken(s: Store, name: string)
  {
    exists id | id in s.users :: s.users[id].username == name
  }

  predicate EmailTaken(s: Store, email: string)
  {
    exists id | id in s.users :: s.users[id].email == email
  }

  /** GetByID: the stored row, or no rows. A NULL department is already
      `None` in the stored record. */
  function GetByID(s: Store, id: Uuid): (r: Result<User, DbError>)
    ensures r.Ok? <==> id in s.users
    ensures r.Ok? ==> r.value == s.users[id]
    ensures Valid(s) && r.Ok? ==> r.value.id == id
    ensures r.Err? ==> r.error == NoRows
  {
    if id in s.users then Ok(s.users[id]) else Err(NoRows)
  }

  /** GetUserByID: a second entry point to the lookup by id. */
  function GetUserByID(s: Store, id: Uuid): (r: Result<User, DbError>)
    ensures r.Ok? <==> id in s.users
    ensures r.Ok? ==> r.value == s.users[id]
    ensures r.Err? ==> r.error == NoRows
  {
    GetByID(s, id)
  }

  /** GetByUsername: the one row with that username, or no rows. */
  function GetByUsername(s: Store, name: string): (r: Result<User, DbError>)
    requires UniqueUsernames(s)
    ensures r.Ok? <==> UsernameTaken(s, name)
    ensures r.Ok? ==> r.value.username == name && r.value in s.users.Values
    ensures r.Err? ==> r.error == NoRows
  {
    if UsernameTaken(s, name) then
      var id :| id in s.users && s.users[id].username == name;
      Ok(s.users[id])
    else
      Err(NoRows)
  }

  /** GetAll: every stored user exactly once, in the order the scan meets them. */
  method GetAll(s: Store) returns (users: seq<User>)
    ensures |users| == |s.users|
    ensures forall u :: u in users <==> u in s.users.Values
    ensures Valid(s) ==> forall i, j :: 0 <= i < j < |users| ==> users[i].id != users[j].id
  {
    users := [];
    var left := s.users.Keys;
    ghost var order: seq<Uuid> := [];
    while left != {}
      invariant left !! Elements(order) && left + Elements(order) == s.users.Keys
      invariant |users| == |order| == |Elements(order)|
      invariant forall i :: 0 <= i < |order| ==> order[i] in s.users && users[i] == s.users[order[i]]
      decreases left
    {
      var id :| id in left;
      ElementsAppend(order, id);
      users := users + [s.users[id]];
      left := left - {id};
      order := order + [id];
    }
    assert Elements(order) == s.users.Keys;
    ListingComplete(s, users, order);
  }

  /** The set of ids listed in `order`. */
  ghost function Elements(order: seq<Uuid>): set<Uuid>
  {
    set i | 0 <= i < |order| :: order[i]
  }

  lemma ElementsAppend(order: seq<Uuid>, id: Uuid)
    ensures Elements(order + [id]) == Elements(order) + {id}
  {
    var o := order + [id];
    assert o[|order|] == id;
    forall x | x in Elements(order) ensures x in Elements(o) {
      var i :| 0 <= i < |order| && order[i] == x;
      assert o[i] == x;
    }
  }

  lemma ListingComplete(s: Store, users: seq<User>, order: seq<Uuid>)
    requires Elements(order) == s.users.Keys
    requires |users| == |order| == |Elements(order)|
    requires forall i :: 0 <= i < |order| ==> order[i] in s.users && users[i] == s.users[order[i]]
    ensures |users| == |s.users|
    ensures forall u :: u in users <==> u in s.users.Values
    ensures Valid(s) ==> forall i, j :: 0 <= i < j < |users| ==> users[i].id != users[j].id
  {
    assert |s.users| == |s.users.Keys|;
    forall u | u in s.users.Values ensures u in users {
      var id :| id in s.users && s.users[id] == u;
      var i :| 0 <= i < |order| && order[i] == id;
      assert users[i] == u;
    }
    if Valid(s) {
      forall i, j | 0 <= i < j < |users| ensures users[i].id != users[j].id {
        if order[i] == order[j] {
          DistinctWhenCounted(order, i, j);
        }
      }
    }
  }

  /** A sequence with as many distinct elements as positions repeats nothing. */
  lemma {:induction false} DistinctWhenCounted(order: seq<Uuid>, i: int, j: int)
    requires |order| == |Elements(order)|
    requires 0 <= i < j < |order|
    ensures order[i] != order[j]
    decreases |order|
  {
    var last := order[|order| - 1];
    var front := order[..|order| - 1];
    assert Elements(order) == Elements(front) + {last};
    ElementsBound(front);
    if last in Elements(front) {
      assert false;
    }
    assert |Elements(front)| == |front|;
    if j < |order| - 1 {
      DistinctWhenCounted(front, i, j);
      assert front[i] == order[i] && front[j] == order[j];
    } else {
      assert order[i] == front[i] && front[i] in Elements(front);
    }
  }

  lemma {:induction false} ElementsBound(order: seq<Uuid>)
    ensures |Elements(order)| <= |order|
    decreases |order|
  {
    if |order| > 0 {
      var front := order[..|order| - 1];
      assert Elements(order) == Elements(front) + {order[|order| - 1]};
      ElementsBound(front);
    }
  }

  /** Create: INSERT with the hashed password; the database assigns id and
      timestamps, and rejects a clash on the primary key, the username or the
      email, checked in that order. */
  function Create(s: Store, draft: User, password: string, newId: Uuid, now: int): (w: Write<User>)
    ensures w.result.Err? ==> w.store == s
    ensures w.result.Ok? <==> newId !in s.users && !UsernameTaken(s, draft.username) && !EmailTaken(s, draft.email)
    ensures newId in s.users ==> w.result == Err(UniqueViolation(PrimaryKey))
    ensures newId !in s.users && UsernameTaken(s, draft.username) ==> w.result == Err(UniqueViolation(UsernameKey))
    ensures newId !in s.users && !UsernameTaken(s, draft.username) && EmailTaken(s, draft.email) ==>
              w.result == Err(UniqueViolation(EmailKey))
    ensures w.result.Ok? ==>
              var u := w.result.value;
              && u.id == newId && u.createdAt == now && u.updatedAt == now
              && Verify(u.passwordHash, password)
              && u.username == draft.username && u.email == draft.email
              && u.firstName == draft.firstName && u.lastName == draft.lastName
              && u.roleId == draft.roleId && u.department == draft.department
              && u.isActive == draft.isActive
              && w.store == Store(s.users[newId := u], s.roles)
  {
    if newId in s.users then Write(s, Err(UniqueViolation(PrimaryKey)))
    else if UsernameTaken(s, draft.username) then Write(s, Err(UniqueViolation(UsernameKey)))
    else if EmailTaken(s, draft.email) then Write(s, Err(UniqueViolation(EmailKey)))
    else
      var u := draft.(id := newId, passwordHash := Hash(password), createdAt := now, updatedAt := now);
      Write(Store(s.users[newId := u], s.roles), Ok(u))
  }

  /** Update: rewrites first_name, last_name, department, role_id and
      is_active of the row with `u.id` and stamps updated_at; returns the new
      updated_at, or no rows when the id is absent. */
  function Update(s: Store, u: User, now: int): (w: Write<int>)
    ensures w.result.Ok? <==> u.id in s.users
    ensures w.result.Err? ==> w.store == s && w.result.error == NoRows
    ensures w.result.Ok? ==>
              && w.result.value == now
              && w.store.roles == s.roles
              && w.store.users.Keys == s.users.Keys
              && (forall id :: id in s.users && id != u.id ==> w.store.users[id] == s.users[id])
              && var before, after := s.users[u.id], w.store.users[u.id];
              && after.id == before.id && after.username == before.username && after.email == before.email
              && after.passwordHash == before.passwordHash && after.createdAt == before.createdAt
              && after.firstName == u.firstName && after.lastName == u.lastName
              && after.department == u.department && after.roleId == u.roleId
              && after.isActive == u.isActive && after.updatedAt == now
  {
    if u.id !in s.users then Write(s, Err(NoRows))
    else
      var before := s.users[u.id];
      var after := before.(firstName := u.firstName, lastName := u.lastName, department := u.department,
                           roleId := u.roleId, isActive := u.isActive, updatedAt := now);
      Write(s.(users := s.users[u.id := after]), Ok(now))
  }

  /** UpdatePassword: replaces the hash and stamps updated_at; an absent id
      updates no row and is not an error. */
  function UpdatePassword(s: Store, id: Uuid, newPassword: string, now: int): (w: Write<()>)
    ensures w.result.Ok?
    ensures id !in s.users ==> w.store == s
    ensures w.store.roles == s.roles && w.store.users.Keys == s.users.Keys
    ensures forall other :: other in s.users && other != id ==> w.store.users[other] == s.users[other]
    ensures id in s.users ==>
              && Verify(w.store.users[id].passwordHash, newPassword)
              && w.store.users[id] == s.users[id].(passwordHash := w.store.users[id].passwordHash, updatedAt := now)
  {
    if id in s.users then
      var after := s.users[id].(passwordHash := Hash(newPassword), updatedAt := now);
      Write(s.(users := s.users[id := after]), Ok(()))
    else
      Write(s, Ok(()))
  }

  /** Delete: removes every user whose id is listed; unknown ids are ignored. */
  function Delete(s: Store, ids: seq<Uuid>): (w: Write<()>)
    ensures w.result.Ok?
    ensures w.store.roles == s.roles
    ensures forall id :: id in w.store.users <==> id in s.users && id !in ids
    ensures forall id :: id in w.store.users ==> w.store.users[id] == s.users[id]
  {
    Write(s.(users := s.users - set id | id in ids), Ok(()))
  }

  /** The two failures of Authenticate. */
  datatype AuthFailure = InvalidCredentials | AccountDisabled {
    function Message(): string
    {
      match this
      case InvalidCredentials => "invalid credentials"
      case AccountDisabled => "user account is disabled"
    }
  }

  /** Authenticate: unknown username, then inactive account, then wrong
      password, in that order. */
  function Authenticate(s: Store, username: string, password: string): (r: Result<User, AuthFailure>)
    requires UniqueUsernames(s)
    ensures !UsernameTaken(s, username) ==> r == Err(InvalidCredentials)
    ensures UsernameTaken(s, username) ==>
              var u := GetByUsername(s, username).value;
              && (!u.isActive ==> r == Err(AccountDisabled))
              && (u.isActive && !Verify(u.passwordHash, password) ==> r == Err(InvalidCredentials))
              && (u.isActive && Verify(u.passwordHash, password) ==> r == Ok(u))
    ensures r.Ok? ==> r.value in s.users.Values && r.value.username == username && r.value.isActive
                      && Verify(r.value.passwordHash, password)
  {
    match GetByUsername(s, username)
    case Err(_) => Err(InvalidCredentials)
    case Ok(u) =>
      if !u.isActive then Err(AccountDisabled)
      else if !Verify(u.passwordHash, password) then Err(InvalidCredentials)
      else Ok(u)
  }

  /** GetRoleByID: the stored role, or no rows. */
  function GetRoleByID(s: Store, id: Uuid): (r: Result<Role, DbError>)
    ensures r.Ok? <==> id in s.roles
    ensures r.Ok? ==> r.value == s.roles[id]
  {
    if id in s.roles then Ok(s.roles[id]) else Err(NoRows)
  }

  // Invariant preservation: every write keeps the database's guarantees.

  lemma CreatePreservesValid(s: Store, draft: User, password: string, newId: Uuid, now: int)
    requires Valid(s)
    ensures Valid(Create(s, draft, password, newId, now).store)
  {
  }

  lemma UpdatePreservesValid(s: Store, u: User, now: int)
    requires Valid(s)
    ensures Valid(Update(s, u, now).store)
  {
  }

  lemma UpdatePasswordPreservesValid(s: Store, id: Uuid, p: string, now: int)
    requires Valid(s)
    ensures Valid(UpdatePassword(s, id, p, now).store)
  {
  }

  lemma DeletePreservesValid(s: Store, ids: seq<Uuid>)
    requires Valid(s)
    ensures Valid(Delete(s, ids).store)
  {
  }

  /** With a clock that does not run backwards, every write keeps
      created_at <= updated_at <= now. */
  lemma WritesStayChronological(s: Store, u: User, draft: User, p: string, newId: Uuid, ids: seq<Uuid>, now: int, later: int)
    requires Chronological(s, now) && now <= later
    ensures Chronological(Create(s, draft, p, newId, later).store, later)
    ensures Chronological(Update(s, u, later).store, later)
    ensures Chronological(UpdatePassword(s, u.id, p, later).store, later)
    ensures Chronological(Delete(s, ids).store, later)
  {
  }
}

=== FILE: uuid.dfy ===
/** 128-bit identifiers (github.com/google/uuid) as 32 hexadecimal digits,
    with the canonical textual form `xxxxxxxx-xxxx-xxxx-xxxx-xxxxxxxxxxxx`
    that `String()` produces and that `Parse` accepts. */
module Uuid {
  import opened Wrappers

  type Nibble = x: int | 0 <= x < 16

  /** A UUID: its 32 hexadecimal digits, most significant first. */
  type Uuid = s: seq<Nibble> | |s| == 32 witness seq(32, _ => 0)

  /** uuid.Nil, the zero value of the Go type. */
  const Nil: Uuid := [0, 0, 0, 0, 0, 0, 0, 0, 0, 0, 0, 0, 0, 0, 0, 0, 0, 0, 0, 0, 0, 0, 0, 0, 0, 0, 0, 0, 0, 0, 0, 0]

  const HexDigits: string := "0123456789abcdef"

  predicate IsHex(ch: char)
  {
    '0' <= ch <= '9' || 'a' <= ch <= 'f' || 'A' <= ch <= 'F'
  }

  function HexValue(ch: char): Nibble
    requires IsHex(ch)
  {
    if '0' <= ch <= '9' then ch as int - '0' as int
    else if 'a' <= ch <= 'f' then ch as int - 'a' as int + 10
    else ch as int - 'A' as int + 10
  }

  /** Lower-case hexadecimal text of a run of digits. */
  function Hex(s: seq<Nibble>): (t: string)
    ensures |t| == |s|
    ensures forall k :: 0 <= k < |s| ==> IsHex(t[k]) && HexValue(t[k]) == s[k]
  {
    seq(|s|, k requires 0 <= k < |s| => HexDigits[s[k]])
  }

  /** `u.String()`: the canonical 36-character form. */
  function Format(u: Uuid): (t: string)
    ensures |t| == 36
  {
    Hex(u[0..8]) + "-" + Hex(u[8..12]) + "-" + Hex(u[12..16]) + "-" + Hex(u[16..20]) + "-" + Hex(u[20..32])
  }

  /** Positions of the four dashes in the canonical form. */
  predicate IsDashPosition(k: int)
  {
    k == 8 || k == 13 || k == 18 || k == 23
  }

  /** Position in the canonical text of the `j`-th hexadecimal digit. */
  function DigitPosition(j: int): (k: int)
    requires 0 <= j < 32
    ensures 0 <= k < 36 && !IsDashPosition(k)
  {
    if j < 8 then j else if j < 12 then j + 1 else if j < 16 then j + 2 else if j < 20 then j + 3 else j + 4
  }

  /** The text has the canonical shape: dashes at 8, 13, 18 and 23 and
      hexadecimal digits (either case) everywhere else. */
  predicate IsCanonical(s: string)
  {
    && |s| == 36
    && (forall k :: 0 <= k < 36 && IsDashPosition(k) ==> s[k] == '-')
    && (forall j :: 0 <= j < 32 ==> IsHex(s[DigitPosition(j)]))
  }

  /** `uuid.Parse(s)` restricted to the canonical form. */
  function Parse(s: string): (r: Option<Uuid>)
    ensures r.Some? <==> IsCanonical(s)
    ensures r.Some? ==> forall j :: 0 <= j < 32 ==> r.value[j] == HexValue(s[DigitPosition(j)])
  {
    if IsCanonical(s) then
      Some(seq(32, j requires 0 <= j < 32 => HexValue(s[DigitPosition(j)])))
    else
      None
  }

  lemma FormatDigits(u: Uuid)
    ensures forall k :: 0 <= k < 36 && IsDashPosition(k) ==> Format(u)[k] == '-'
    ensures forall j :: 0 <= j < 32 ==> IsHex(Format(u)[DigitPosition(j)]) && HexValue(Format(u)[DigitPosition(j)]) == u[j]
  {
    var t := Format(u);
    var a, b, c, d, e := Hex(u[0..8]), Hex(u[8..12]), Hex(u[12..16]), Hex(u[16..20]), Hex(u[20..32]);
    assert t == a + "-" + b + "-" + c + "-" + d + "-" + e;
    forall j | 0 <= j < 32
      ensures IsHex(t[DigitPosition(j)]) && HexValue(t[DigitPosition(j)]) == u[j]
    {
      if j < 8 {
        assert t[j] == a[j];
      } else if j < 12 {
        assert t[j + 1] == b[j - 8];
      } else if j < 16 {
        assert t[j + 2] == c[j - 12];
      } else if j < 20 {
        assert t[j + 3] == d[j - 16];
      } else {
        assert t[j + 4] == e[j - 20];
      }
    }
  }

  /** Parsing the canonical text of an identifier gives that identifier back. */
  lemma ParseFormat(u: Uuid)
    ensures Parse(Format(u)) == Some(u)
  {
    FormatDigits(u);
    var r := Parse(Format(u));
    assert r.value == u;
  }

  /** Distinct identifiers have distinct canonical texts. */
  lemma FormatInjective(u: Uuid, v: Uuid)
    requires Format(u) == Format(v)
    ensures u == v
  {
    ParseFormat(u);
    ParseFormat(v);
  }
}

=== FILE: wrappers.dfy ===
/** Failure-compatible Option and Result datatypes used throughout the model. */
module Wrappers {

  /** An optional value: Go's nil, an absent map key or SQL NULL. */
  datatype Option<+T> = None | Some(value: T) {
    predicate IsFailure() {
      None?
    }

    function PropagateFailure<U>(): Option<U>
      requires None?
    {
      None
    }

    function Extract(): T
      requires Some?
    {
      value
    }
  }

  /** Either a value or the error that Go returns beside it. */
  datatype Result<+R, +E> = Ok(value: R) | Err(error: E) {
    predicate IsFailure() {
      Err?
    }

    function PropagateFailure<U>(): Result<U, E>
      requires Err?
    {
      Err(error)
    }

    function Extract(): R
      requires Ok?
    {
      value
    }
  }
}
